=== FILE: README.md ===
# Line chart view: the data-to-chart projection

This project models the line chart view of the Obsidian Graphs View plugin
(`src/views/line-chart-view.ts`). A query result is a sequence of groups of
entries. When it changes, the view does the following:

- picks the series properties (those starting with `note.` or `formula.`);
- decides whether the data is grouped;
- builds one data point per group (aggregated) or one per entry (coerced);
- drops the points whose series are all null;
- sorts the points by label;
- assembles one dataset per series, aligned with the sorted labels, plus the axis titles and bounds;
- hands the result to a chart object, which it keeps as a handle and releases before building the next one.

The model follows the source's own split:

- `WikiLink`: `parseWikiLink`, the `[[path]]` / `[[path|display]]` parser.
- `Aggregation`: `aggregate` over `avg`, `sum`, `min`, `max` and `count`, in exact arithmetic.
- `Points`: the specification of both point builders as functions. This covers the series filter, `isGrouped` (a group records its key and its `hasKey()` answer separately), the `Number()` coercion, and the "keep a point only if some value is non-null" rule.
- `PointBuilder`: the builders as the source writes them. These are the nested `for` loops that push points and fill the per-point value maps. Each loop is proved equal to its specification function.
- `LabelOrder`: the sort comparator and an in-place stable sort on an array.
  - It is proved equal to a functional insertion sort.
  - The output is proved to be a permutation of the input and ordered by the comparator.
  - If every label is numeric, the output is in numeric order; if none is, it is in string order.
- `ChartAssembly`:
  - the chart description: labels, datasets with round-robin colours, axis titles, `yMin`/`yMax`;
  - the path a click on the chart opens and the path an overlay label links to.
- `LineChartView`:
  - the whole projection (`Project`) and a method that computes it with the loops and the array sort;
  - the class `LineChartBasesView`, whose container, canvas, overlay and chart handle change as `onDataUpdated`, `destroyChart` and `onunload` run.

  The class carries a ghost log of the charts it created and destroyed. Its invariant says that every chart created has been destroyed, except the one currently held.
- `Examples`: concrete inputs worked through the model.

The host's coercions become a `Host` record of functions passed in as parameters:

- `Number(text)` and `parseFloat(text)`, with `None` standing for NaN;
- `getPropertyDisplayName(property)`.

An entry's property value is a record of its `toString()` text and its `Number()` value. `localeCompare` is modelled as plain lexicographic order on characters.

Two places where the code, not a prose description of it, decides the model:

- In `parseWikiLink` the fallback `?? path` never applies. `path.split("/").pop()` always yields a string, so `[[notes/]]` gets the empty display name (`Examples.TrailingSlashShowsEmptyName`).
- When the configuration or no-data message ends an update early, the previous chart handle is not released. The container is emptied, but `this.chart` keeps the old chart until the next full render or `onunload`.

## Model

The lemmas and methods below are proved against reference functions that need no row of their own:

- `Aggregation.Total` stands for the `reduce` of lines 79-81.
- `Points.GroupedPoints` stands for the grouped loop of lines 152-173.
- `Points.FlatPoints` stands for the flat loops of lines 176-204.
- `Points.CoercingCount` counts the entries that pass the `isNaN` test of line 163.
- `LabelOrder.Sorted` stands for the `sort` of lines 213-220.
- `ChartAssembly.YBound` stands for the bound parsing of lines 125-126 and 335-336.

| member | source | states |
|---|---|---|
| WikiLink.MatchWikiLink | src/views/line-chart-view.ts:66-67 | a match of the wiki-link pattern gives a non-empty path free of `]` and the bar, and an optional non-empty alias free of `]`, which render back to exactly the input |
| WikiLink.MatchRender | src/views/line-chart-view.ts:66 | every well-formed bare or aliased link is matched, with its own path and alias (the pattern is exact on its language) |
| WikiLink.LastSegment | src/views/line-chart-view.ts:69 | `split("/").pop()`: the result has no `/`, is a suffix of the path, and is preceded by `/` unless it is the whole path |
| WikiLink.ParseWikiLink | src/views/line-chart-view.ts:65-73 | a returned path is always a valid link path; without a path the display name is the input text |
| WikiLink.ParseAliased | src/views/line-chart-view.ts:68-70 | an aliased link with path `p` and alias `d` gives display `d` and path `p` |
| WikiLink.ParseBare | src/views/line-chart-view.ts:68-70 | `[[p]]` gives the last `/`-segment of `p` as display and path `p` |
| WikiLink.ParsePlain | src/views/line-chart-view.ts:72 | the path is null exactly when the text is no wiki link (both directions), and then the text comes back unchanged |
| Aggregation.Least | src/views/line-chart-view.ts:83 | `Math.min`: a member of the list that is at most every element |
| Aggregation.Greatest | src/views/line-chart-view.ts:85 | `Math.max`: a member of the list that is at least every element |
| Aggregation.Aggregate | src/views/line-chart-view.ts:75-89 | null exactly for the empty list; min and max are members bounding every element; count is the length |
| Aggregation.TotalAppend | src/views/line-chart-view.ts:79-81 | the `reduce` total distributes over concatenation |
| Aggregation.TotalBounds | src/views/line-chart-view.ts:79-81 | a total of n values within [lo, hi] lies within [n·lo, n·hi] |
| Aggregation.TotalDominates | src/views/line-chart-view.ts:79-81 | the `reduce` total of non-negative values is non-negative and at least each of them |
| Aggregation.MeanBetween | src/views/line-chart-view.ts:79 | a mean of values within [lo, hi] lies within [lo, hi] |
| Aggregation.AverageWithinBounds | src/views/line-chart-view.ts:78-85 | for a non-empty list, min ≤ avg ≤ max |
| Aggregation.SumAndAverage | src/views/line-chart-view.ts:78-87 | sum is the total, and avg · count = sum |
| Aggregation.SumExtends | src/views/line-chart-view.ts:81 | appending x to the list adds x to the sum |
| Points.SeriesProperties | src/views/line-chart-view.ts:117-122 | a property is a series exactly when it is selected and starts with `note.` or `formula.`; no more series than selected properties |
| Points.SeriesPropertiesAppend | src/views/line-chart-view.ts:118-122 | the filter keeps the selection order (it distributes over concatenation) |
| Points.IsGrouped | src/views/line-chart-view.ts:144-145 | grouped implies some group; not grouped exactly when there are no groups or a single group whose `hasKey()` is false |
| Points.GroupLabel | src/views/line-chart-view.ts:153 | the text of the group key, or "Ungrouped" when there is none |
| Points.Coerce | src/views/line-chart-view.ts:185-191 | a value is present exactly when the entry has the property and it coerces to a number, and it is then that number |
| Points.HasValue | src/views/line-chart-view.ts:195 | a point is kept exactly when some value of its map is non-null |
| Points.GroupPoint | src/views/line-chart-view.ts:152-171 | a group point carries no entry, the display name and path of `parseWikiLink` of the group label, a slot for exactly the series holding the aggregate of the group's collected numbers for it, null exactly when no entry of the group coerces to a number for it |
| Points.GroupSlot | src/views/line-chart-view.ts:156-166 | a non-null slot of a group point is, under min (max), some entry's number that is at most (at least) every entry's number; under count the number of entries that coerce; under sum the total of their numbers; under avg that total over that count |
| Points.AggregateOfEntries | src/views/line-chart-view.ts:158-166 | the same characterisation for the aggregate of any run of entries |
| Points.LeastOfEntries | src/views/line-chart-view.ts:83 | the least collected number is some entry's number and at most every entry's number |
| Points.GreatestOfEntries | src/views/line-chart-view.ts:85 | the greatest collected number is some entry's number and at least every entry's number |
| Points.EntryLabel | src/views/line-chart-view.ts:179-180 | the text of the x property when the entry has it, otherwise the file name |
| Points.EntryPoint | src/views/line-chart-view.ts:179-201 | an entry point carries its entry, no link path, the entry label, and for each series exactly the coerced value |
| Points.BuildPoints | src/views/line-chart-view.ts:150-205 | at most one point per group when grouped, at most one per entry otherwise |
| Points.NumericValues | src/views/line-chart-view.ts:158-165 | the collected numbers are empty exactly when no entry coerces to a number; never more numbers than entries |
| Points.NumericValuesMembers | src/views/line-chart-view.ts:159-164 | a number is collected exactly when some entry of the group coerces to it |
| Points.NumericValuesAppend | src/views/line-chart-view.ts:159-165 | the numbers are collected in entry order: collecting distributes over concatenation |
| Points.NumericValuesOne | src/views/line-chart-view.ts:160-163 | one entry contributes its coerced number, or nothing when it does not coerce |
| Points.NumericValuesCount | src/views/line-chart-view.ts:159-165 | one number is collected per entry that coerces |
| Points.KeptAppend | src/views/line-chart-view.ts:169-201 | the push-if-some-value filter keeps input order (distributes over concatenation) |
| Points.KeptSpec | src/views/line-chart-view.ts:169-201 | at most one point per input, each kept point has a non-null value and comes from some input, every input with a non-null value is kept |
| Points.GroupedPointsAppend | src/views/line-chart-view.ts:152-172 | grouped points come out in group order |
| Points.GroupedPointsOne | src/views/line-chart-view.ts:169-171 | a single group gives its point exactly when some aggregate is non-null |
| Points.EntryPointsAppend | src/views/line-chart-view.ts:177-202 | flat points come out in entry order |
| Points.EntryPointsOne | src/views/line-chart-view.ts:195-201 | a single entry gives its point exactly when some value is non-null |
| Points.FlatPointsOfAllEntries | src/views/line-chart-view.ts:176-177 | the nested group/entry loops equal one pass over all entries in order |
| Points.GroupedPointsSpec | src/views/line-chart-view.ts:150-173 | at most one point per group; each carries no entry and the path of `parseWikiLink` of its group label; every group with a non-null aggregate is kept |
| Points.EntryPointsSpec | src/views/line-chart-view.ts:174-205 | at most one point per entry; each carries its entry and no link path; every entry with a non-null value is kept |
| Points.PointKeys | src/views/line-chart-view.ts:156-192 | every built point has a value slot for exactly the series properties |
| Points.BuildPointsSpec | src/views/line-chart-view.ts:150-205 | every built point has a non-null value; grouped points carry no entry and a group's link path; flat points carry one of the entries and no link path |
| PointBuilder.CollectNumeric | src/views/line-chart-view.ts:158-165 | the entry loop collects exactly the numeric coercions, in order |
| PointBuilder.AggregateSeries | src/views/line-chart-view.ts:156-167 | the series loop fills the map with each series' aggregate |
| PointBuilder.BuildGroupedPoints | src/views/line-chart-view.ts:150-173 | the group loop pushes exactly the grouped-mode points |
| PointBuilder.PointOfEntry | src/views/line-chart-view.ts:179-192 | the label (x value or file name) and the value map of one entry |
| PointBuilder.BuildFlatPoints | src/views/line-chart-view.ts:174-205 | the nested loops push exactly the flat-mode points |
| LabelOrder.LexCompare | src/views/line-chart-view.ts:219 | the string comparison returns -1, 0 or 1, and 0 exactly for equal strings |
| LabelOrder.LexAntisymmetric | src/views/line-chart-view.ts:219 | swapping the strings negates the comparison |
| LabelOrder.LexTransitive | src/views/line-chart-view.ts:219 | the string order is transitive |
| LabelOrder.LabelCompare | src/views/line-chart-view.ts:213-220 | for two numeric labels the comparator is non-positive exactly when the first number is at most the second; otherwise it is zero exactly for equal labels and negative exactly when the string comparison is |
| LabelOrder.CompareAntisymmetric | src/views/line-chart-view.ts:213-220 | swapping the labels negates the comparator (numeric or string) |
| LabelOrder.InsertPermutes | src/views/line-chart-view.ts:213 | one insertion adds exactly the inserted point |
| LabelOrder.SortedPermutes | src/views/line-chart-view.ts:213 | the sorted points are a permutation of the input |
| LabelOrder.SortedMembers | src/views/line-chart-view.ts:213 | every sorted point comes from the input |
| LabelOrder.InsertLast | src/views/line-chart-view.ts:213 | an insertion adds one point, and the last point is the inserted one or the former last |
| LabelOrder.InsertOrdered | src/views/line-chart-view.ts:213-220 | insertion keeps every neighbouring pair in comparator order |
| LabelOrder.SortedOrdered | src/views/line-chart-view.ts:213-220 | every neighbouring pair of the output is in comparator order |
| LabelOrder.SortedNumeric | src/views/line-chart-view.ts:214-218 | when every label is numeric, the output is in non-decreasing numeric order |
| LabelOrder.SortedText | src/views/line-chart-view.ts:219 | when no label is numeric, the output is in string order |
| LabelOrder.InsertLeft | src/views/line-chart-view.ts:213-220 | one pass of the in-place sort inserts `a[i]` into the sorted prefix and leaves the rest of the array alone |
| LabelOrder.SortPoints | src/views/line-chart-view.ts:213-220 | the array is sorted in place to exactly the stable insertion order of its old contents |
| ChartAssembly.SeriesData | src/views/line-chart-view.ts:261 | one slot per point |
| ChartAssembly.Datasets | src/views/line-chart-view.ts:254-272 | one dataset per series, named by the display name of its property |
| ChartAssembly.ValueOf | src/views/line-chart-view.ts:261 | a series slot is the point's value for that series, null when the map lacks it |
| ChartAssembly.XLabelProperty | src/views/line-chart-view.ts:138 | the configured x property when non-empty, otherwise "file.name"; never empty |
| ChartAssembly.XTitle | src/views/line-chart-view.ts:314 | "Group" when grouped, otherwise the display name of the x property |
| ChartAssembly.YTitle | src/views/line-chart-view.ts:330-332 | the display name of the single series, or "Value" when there is not exactly one series |
| ChartAssembly.Describe | src/views/line-chart-view.ts:254-336 | one label per point, in point order; one dataset per series, each with one slot per point; the x and y titles; the given y bounds |
| ChartAssembly.HasLinks | src/views/line-chart-view.ts:223 | some point has a link exactly when a click on some point opens a path |
| ChartAssembly.SeriesColors | src/views/line-chart-view.ts:254-255 | series i has colour `LINE_COLORS[i mod 8]` (the palette of lines 39-48); the first eight series have distinct colours, and colours repeat every eight series |
| ChartAssembly.DatasetsAligned | src/views/line-chart-view.ts:261-277 | slot j of every dataset holds point j's value for that series, null exactly where that value is null (never a substitute) |
| ChartAssembly.NoEmptyColumn | src/views/line-chart-view.ts:254-261 | no category has a null in every dataset |
| ChartAssembly.ClickTarget | src/views/line-chart-view.ts:345-361 | a click opens the entry's file path when the point has an entry, else its link path when that is non-empty, else nothing; nothing for an index out of range |
| ChartAssembly.OverlayTarget | src/views/line-chart-view.ts:394-396 | an overlay label links to its link path when present, and is plain text when that path is empty (`??` falls back only on a missing path); otherwise it links to the entry's file path when non-empty, and is plain text without an entry or with an empty file path; never to an empty path |
| ChartAssembly.OverlayLabels | src/views/line-chart-view.ts:386-430 | one overlay label per point |
| ChartAssembly.TargetsAgree | src/views/line-chart-view.ts:351-358 | for a point with only one of entry and link path, whose entry (if any) has a non-empty file path, the click target and the overlay link agree |
| ChartAssembly.OverlayOnlyWithLinks | src/views/line-chart-view.ts:223-236 | with non-empty paths, some overlay label is a link exactly when `hasLinks` holds |
| LineChartView.ProjectNoSeries | src/views/line-chart-view.ts:117-135 | the configuration message is shown exactly when no selected property is a series |
| LineChartView.ProjectNoData | src/views/line-chart-view.ts:207-210 | the no-data message is shown exactly when there are series but no point survives |
| LineChartView.ProjectReadyPoints | src/views/line-chart-view.ts:150-220 | the chart's points are a permutation of the built points; each has a non-null value and a slot for exactly the series; grouped points have no entry; flat points have an entry and no link path |
| LineChartView.Project | src/views/line-chart-view.ts:117-277 | the configuration message exactly when no series is selected; a chart shows a permutation of the built points, non-empty, with one label per point and one dataset per series |
| LineChartView.ProjectReadyDescription | src/views/line-chart-view.ts:125-336 | one label per point in point order; one dataset per series, named by its display name; no all-null category; x title "Group" or the x property's display name; y title the single series' display name or "Value"; the y minimum is absent exactly when its text is absent, empty or NaN under `parseFloat`, and is otherwise `parseFloat` of the text; the same for the y maximum |
| LineChartView.ProjectNumericOrder | src/views/line-chart-view.ts:213-220 | when all labels are numeric, the chart's categories are in non-decreasing numeric order |
| LineChartView.BuildProjection | src/views/line-chart-view.ts:117-277 | the loops and the in-place sort compute exactly the projection |
| LineChartView.LineChartBasesView.constructor | src/views/line-chart-view.ts:100-103 | an empty container, no canvas, overlay or chart, and an empty chart log |
| LineChartView.LineChartBasesView.DestroyChart | src/views/line-chart-view.ts:453-458 | the held chart (if any) is released and the handle becomes null; nothing else changes |
| LineChartView.LineChartBasesView.OnUnload | src/views/line-chart-view.ts:460-462 | after unload no chart is held and every chart ever created has been released; the container, canvas and overlay are unchanged |
| LineChartView.LineChartBasesView.ShowChart | src/views/line-chart-view.ts:225-246 | adds the chart wrapper and (with links) the overlay, releases the old chart, then holds the new chart, or without a drawing context shows the context message and holds none |
| LineChartView.LineChartBasesView.Present | src/views/line-chart-view.ts:128-246 | clears the container, then shows exactly one of the three outcomes; every chart but the held one stays released |
| LineChartView.LineChartBasesView.OnDataUpdated | src/views/line-chart-view.ts:105-369 | the container, canvas, overlay and chart handle after an update, per outcome of the projection; a chart is shown or the last element is a message; no chart is leaked |
| Examples.AliasedLink | src/views/line-chart-view.ts:65-73 | the link to "notes/a" aliased "Alpha" gives display "Alpha" and path "notes/a" |
| Examples.BareLink | src/views/line-chart-view.ts:65-73 | `[[notes/a]]` gives display "a" and path "notes/a" |
| Examples.PlainText | src/views/line-chart-view.ts:72 | "plain" comes back unchanged with no path |
| Examples.TrailingSlashShowsEmptyName | src/views/line-chart-view.ts:69 | `[[notes/]]` gives the empty display name: the `?? path` fallback does not apply |
| Examples.GroupedAverage | src/views/line-chart-view.ts:150-173 | groups G1 (scores 2 and 4) and G2 (score 6) give the points G1 = 3 and G2 = 6, in group order |
| Examples.FlatDropsNull | src/views/line-chart-view.ts:174-205 | a single unkeyed group of x = 5, y = none, z = 7 gives the points of x and z only |
| Examples.MixedLabelSort | src/views/line-chart-view.ts:213-220 | labels "10", "2", "banana" sort to "2", "10", "banana" |
| Examples.ZeroFloorNoCeiling | src/views/line-chart-view.ts:125-126 | a y minimum of "0" and an empty y maximum give the minimum `parseFloat("0")` and no maximum |

## Left out

- `renderCustomLabels` pixel positioning (`getBoundingClientRect`, `getPixelForValue`), and the click, auxclick and hover listeners. Only which path each overlay label links to is modelled (`OverlayTarget`, `OverlayLabels`).
- Chart.js construction and styling: `getComputedStyle` theme colours, `fillArea` and `showPoints` options, tension, `responsive`/`onResize`, and tick display. The chart is recorded as its description and points.
- `app.workspace.openLinkText`, `Keymap.isModEvent` and the hover popover are host navigation I/O. Only the chosen path is modelled (`ClickTarget`).
- The exact JavaScript semantics of `Number()`, `parseFloat` and `getPropertyDisplayName` are not modelled. They are parameters (`Host`), so every property holds whatever these functions return.
- LabelOrder.LexCompare: `localeCompare` is modelled as lexicographic order on characters, not the locale's collation.
- IEEE-754 floating point (rounding, Infinity, NaN arithmetic) is not modelled. Numbers are exact reals, and NaN appears only as a `None` from a coercion.
- LabelOrder.SortPoints: models `Array.prototype.sort` as a stable insertion sort. For a comparator that is a consistent order, every stable sort gives this same output. The engine's order for inconsistent comparisons is not modelled. Such comparisons can arise, for example, from mixing numeric and non-numeric labels, which breaks transitivity.
- The aggregation-method option is modelled as one of the five methods, or unset (`avg`). An arbitrary string outside the five, which would make `aggregate` return undefined, is not modelled.
- `canvasEl` and `customLabelsEl` are modelled by whether they are set, not by element identity. `showMessage` and `createDiv` become elements appended to the container sequence.
- LineChartView.LineChartBasesView.OnDataUpdated: the drawing-context lookup `getContext("2d")` is a boolean parameter.
- `src/main.ts` (plugin registration, view options schema) and `src/settings.ts` (settings tab) are not part of this model.

=== FILE: aggregation.dfy ===
/**
 * The aggregator: reduces the numeric values of one group and one series to a
 * single number under the configured method. Numbers are exact reals: the
 * floating-point rounding of JavaScript's sum and division is not modelled.
 */
module Aggregation {
  import opened Wrappers

  /** `AggregationMethod`: "avg" | "sum" | "min" | "max" | "count". */
  datatype Method = Avg | Sum | Min | Max | Count

  /** The running total of the values, starting from 0 (the `sum` and `avg` reduction). */
  function Total(s: seq<real>): real
  {
    if s == [] then 0.0 else Total(s[..|s| - 1]) + s[|s| - 1]
  }

  /** The total of non-negative values is non-negative and at least every one of them. */
  lemma {:induction false} TotalDominates(s: seq<real>)
    requires forall i :: 0 <= i < |s| ==> 0.0 <= s[i]
    ensures 0.0 <= Total(s)
    ensures forall i :: 0 <= i < |s| ==> s[i] <= Total(s)
  {
    if s != [] {
      var init := s[..|s| - 1];
      assert forall i :: 0 <= i < |init| ==> init[i] == s[i];
      TotalDominates(init);
    }
  }

  /** The smallest value of a non-empty list (the `min` method). */
  function Least(s: seq<real>): (r: real)
    requires |s| > 0
    ensures r in s
    ensures forall i :: 0 <= i < |s| ==> r <= s[i]
  {
    if |s| == 1 then s[0]
    else
      var m := Least(s[1..]);
      assert forall i :: 1 <= i < |s| ==> s[i] == s[1..][i - 1];
      if s[0] < m then s[0] else m
  }

  /** The largest value of a non-empty list (the `max` method). */
  function Greatest(s: seq<real>): (r: real)
    requires |s| > 0
    ensures r in s
    ensures forall i :: 0 <= i < |s| ==> s[i] <= r
  {
    if |s| == 1 then s[0]
    else
      var m := Greatest(s[1..]);
      assert forall i :: 1 <= i < |s| ==> s[i] == s[1..][i - 1];
      if s[0] > m then s[0] else m
  }

  /**
   * `aggregate`: None for an empty list (no data, as distinct from zero data);
   * otherwise the mean, total, least, greatest element, or the element count.
   */
  function Aggregate(values: seq<real>, m: Method): (r: Option<real>)
    ensures r.None? <==> values == []
    ensures r.Some? && m.Min? ==> r.value in values && forall i :: 0 <= i < |values| ==> r.value <= values[i]
    ensures r.Some? && m.Max? ==> r.value in values && forall i :: 0 <= i < |values| ==> values[i] <= r.value
    ensures r.Some? && m.Count? ==> r.value == |values| as real
  {
    if |values| == 0 then None
    else
      match m
      case Avg => Some(Total(values) / |values| as real)
      case Sum => Some(Total(values))
      case Min => Some(Least(values))
      case Max => Some(Greatest(values))
      case Count => Some(|values| as real)
  }

  /** The total of a concatenation is the sum of the totals (the fold's order is immaterial). */
  lemma {:induction false} TotalAppend(a: seq<real>, b: seq<real>)
    ensures Total(a + b) == Total(a) + Total(b)
  {
    if b != [] {
      assert (a + b)[..|a + b| - 1] == a + b[..|b| - 1];
      TotalAppend(a, b[..|b| - 1]);
    } else {
      assert a + b == a;
    }
  }

  /** Every element lies between `lo` and `hi`, so the total lies between `n*lo` and `n*hi`. */
  lemma {:induction false} TotalBounds(s: seq<real>, lo: real, hi: real)
    requires forall i :: 0 <= i < |s| ==> lo <= s[i] <= hi
    ensures |s| as real * lo <= Total(s) <= |s| as real * hi
  {
    if s != [] {
      TotalBounds(s[..|s| - 1], lo, hi);
    }
  }

  /** The average of a non-empty list lies between its minimum and its maximum. */
  lemma AverageWithinBounds(values: seq<real>)
    requires values != []
    ensures Aggregate(values, Min).value <= Aggregate(values, Avg).value <= Aggregate(values, Max).value
  {
    MeanBetween(values, Least(values), Greatest(values));
    assert Aggregate(values, Avg) == Some(Total(values) / |values| as real);
  }

  /** A mean of values that all lie within `[lo, hi]` lies within it too. */
  lemma MeanBetween(values: seq<real>, lo: real, hi: real)
    requires values != []
    requires forall i :: 0 <= i < |values| ==> lo <= values[i] <= hi
    ensures lo <= Total(values) / |values| as real <= hi
  {
    TotalBounds(values, lo, hi);
    QuotientBounds(Total(values), |values| as real, lo, hi);
  }

  /** Dividing `n*lo <= t <= n*hi` by a positive `n`. */
  lemma QuotientBounds(t: real, n: real, lo: real, hi: real)
    requires n > 0.0 && n * lo <= t <= n * hi
    ensures lo <= t / n <= hi
  {
    assert (t / n) * n == t;
  }

  /** For a non-empty list, the sum is the total and the average is the total over the count. */
  lemma SumAndAverage(values: seq<real>)
    requires values != []
    ensures Aggregate(values, Sum) == Some(Total(values))
    ensures Aggregate(values, Avg).value * Aggregate(values, Count).value == Aggregate(values, Sum).value
  {
  }

  /** The sum of a one-element list is that element; appending one value adds it to the sum. */
  lemma {:induction false} SumExtends(values: seq<real>, x: real)
    ensures Aggregate(values + [x], Sum).value == Total(values) + x
  {
    TotalAppend(values, [x]);
    assert Total([x]) == Total([]) + x;
  }
}

=== FILE: chart_assembly.dfy ===
/**
 * The chart assembler and the navigation-target choices: from the sorted data
 * points and the series properties to the declarative chart description (labels,
 * one dataset per series aligned to the labels, axis titles and bounds), and the
 * path a click on the chart or on an overlay label opens.
 */
module ChartAssembly {
  import opened Wrappers
  import opened Points

  /**
   * The host's coercions and naming: `Number(text)` (None standing for NaN),
   * `parseFloat(text)` (None for NaN) and `getPropertyDisplayName(property)`.
   */
  datatype Host = Host(
    number: string -> Option<real>,
    parseFloat: string -> Option<real>,
    displayName: string -> string)

  /** `LINE_COLORS`: the palette series colours are taken from, in turn. */
  const LineColors: seq<string> :=
    ["#8b5cf6", "#06b6d4", "#f59e0b", "#10b981", "#ef4444", "#ec4899", "#3b82f6", "#84cc16"]

  /** One line: its legend name, one slot per category (null kept as a gap), its colour. */
  datatype Dataset = Dataset(name: string, data: seq<Option<real>>, color: string)

  /** The chart configuration handed to Chart.js, less its styling. */
  datatype ChartDescription = ChartDescription(
    labels: seq<string>,
    datasets: seq<Dataset>,
    xTitle: string,
    yTitle: string,
    yMin: Option<real>,
    yMax: Option<real>)

  /** A point's value for one series, null when the point has no slot for it. */
  function ValueOf(dp: DataPoint, prop: string): (r: Option<real>)
    ensures r.Some? ==> prop in dp.values && dp.values[prop] == r
    ensures prop in dp.values ==> r == dp.values[prop]
  {
    if prop in dp.values then dp.values[prop] else None
  }

  /** One series' data: the value of every point, position by position, null kept. */
  function SeriesData(points: seq<DataPoint>, prop: string): (r: seq<Option<real>>)
    ensures |r| == |points|
  {
    seq(|points|, j requires 0 <= j < |points| => ValueOf(points[j], prop))
  }

  /** One dataset per series property, named by its display name and coloured round-robin. */
  function Datasets(props: seq<string>, points: seq<DataPoint>, host: Host): (r: seq<Dataset>)
    ensures |r| == |props|
    ensures forall i :: 0 <= i < |props| ==> r[i].name == host.displayName(props[i])
  {
    seq(|props|, i requires 0 <= i < |props| =>
      Dataset(host.displayName(props[i]), SeriesData(points, props[i]), LineColors[i % |LineColors|]))
  }

  /** The configured x-axis label property, or the file name when it is unset or empty. */
  function XLabelProperty(configured: Option<string>): (r: string)
    ensures r != ""
    ensures configured.Some? && configured.value != "" ==> r == configured.value
    ensures configured.None? || configured == Some("") ==> r == "file.name"
  {
    if configured.Some? && configured.value != "" then configured.value else "file.name"
  }

  /** The horizontal axis title: "Group" in grouped mode, else the label property's display name. */
  function XTitle(grouped: bool, xProp: string, host: Host): (r: string)
    ensures grouped ==> r == "Group"
    ensures !grouped ==> r == host.displayName(xProp)
  {
    if grouped then "Group" else host.displayName(xProp)
  }

  /**
   * The vertical axis title: the one series' display name, else "Value" (a series
   * property is never empty, so the truthiness test never rejects it).
   */
  function YTitle(props: seq<string>, host: Host): (r: string)
    ensures |props| == 1 && IsSeriesProperty(props[0]) ==> r == host.displayName(props[0])
    ensures |props| != 1 ==> r == "Value"
  {
    if |props| == 1 && props[0] != "" then host.displayName(props[0]) else "Value"
  }

  /** An axis bound: parsed from non-empty configured text, undefined when absent, empty or NaN. */
  function YBound(raw: Option<string>, host: Host): (r: Option<real>)
    ensures raw.None? || raw == Some("") ==> r.None?
    ensures raw.Some? && raw.value != "" ==> r == host.parseFloat(raw.value)
  {
    if raw.Some? && raw.value != "" then host.parseFloat(raw.value) else None
  }

  /** The chart description of the sorted points. */
  function Describe(points: seq<DataPoint>, props: seq<string>, grouped: bool, xProp: string,
                    yMin: Option<real>, yMax: Option<real>, host: Host): (r: ChartDescription)
    ensures |r.labels| == |points| && forall j :: 0 <= j < |points| ==> r.labels[j] == points[j].labelText
    ensures |r.datasets| == |props| && forall i :: 0 <= i < |props| ==> |r.datasets[i].data| == |points|
    ensures r.xTitle == XTitle(grouped, xProp, host) && r.yTitle == YTitle(props, host)
    ensures r.yMin == yMin && r.yMax == yMax
  {
    var ds := Datasets(props, points, host);
    assert forall i :: 0 <= i < |props| ==> ds[i].data == SeriesData(points, props[i]);
    ChartDescription(
      seq(|points|, j requires 0 <= j < |points| => points[j].labelText),
      ds,
      XTitle(grouped, xProp, host),
      YTitle(props, host),
      yMin, yMax)
  }

  // ---------------------------------------------------------------- properties of the assembly

  /**
   * Series `i` is drawn in palette colour `i mod 8`; the first eight series get
   * eight different colours, and series `i + 8` repeats the colour of series `i`.
   */
  lemma SeriesColors(props: seq<string>, points: seq<DataPoint>, host: Host)
    ensures var ds := Datasets(props, points, host);
      && (forall i :: 0 <= i < |ds| ==> ds[i].color == LineColors[i % 8])
      && (forall i, k :: 0 <= i < k < |ds| && k < 8 ==> ds[i].color != ds[k].color)
      && (forall i :: 0 <= i && i + 8 < |ds| ==> ds[i + 8].color == ds[i].color)
  {
    var ds := Datasets(props, points, host);
    forall i | 0 <= i && i + 8 < |ds| ensures ds[i + 8].color == ds[i].color {
      assert (i + 8) % 8 == i % 8;
    }
  }

  /**
   * Every dataset has exactly one slot per point, and slot `j` of series `i` is
   * point `j`'s value for that series, null staying null (never replaced by 0).
   */
  lemma DatasetsAligned(props: seq<string>, points: seq<DataPoint>, host: Host)
    requires forall j :: 0 <= j < |points| ==> forall p :: p in points[j].values <==> p in props
    ensures var ds := Datasets(props, points, host);
      forall i, j :: 0 <= i < |ds| && 0 <= j < |points| ==>
        |ds[i].data| == |points| && ds[i].data[j] == points[j].values[props[i]] &&
        (ds[i].data[j].None? <==> points[j].values[props[i]].None?)
  {
  }

  /** Category `j` holds a non-null value in some dataset. */
  predicate Covered(ds: seq<Dataset>, j: nat) {
    exists i :: 0 <= i < |ds| && j < |ds[i].data| && ds[i].data[j].Some?
  }

  /**
   * When every point has a non-null value for some series (the series builder's
   * invariant), no category is a gap in every dataset.
   */
  lemma NoEmptyColumn(props: seq<string>, points: seq<DataPoint>, host: Host)
    requires forall j :: 0 <= j < |points| ==> forall p :: p in points[j].values <==> p in props
    requires forall j :: 0 <= j < |points| ==> HasValue(points[j])
    ensures forall j :: 0 <= j < |points| ==> Covered(Datasets(props, points, host), j)
  {
    var ds := Datasets(props, points, host);
    forall j | 0 <= j < |points| ensures Covered(ds, j) {
      var p :| p in points[j].values && points[j].values[p].Some?;
      var i :| 0 <= i < |props| && props[i] == p;
      assert ds[i].data[j] == points[j].values[p];
    }
  }

  // ---------------------------------------------------------------- navigation targets

  /**
   * The path a click on category `index` of the chart opens: the entry's file
   * first, then the link path; nothing for an index with no point.
   */
  function ClickTarget(points: seq<DataPoint>, index: int): (r: Option<string>)
    ensures r.Some? ==> 0 <= index < |points|
    ensures 0 <= index < |points| && points[index].entry.Some? ==> r == Some(points[index].entry.value.filePath)
    ensures 0 <= index < |points| && points[index].entry.None? ==>
              r == (if points[index].linkPath.Some? && points[index].linkPath.value != "" then points[index].linkPath else None)
  {
    if 0 <= index < |points| then
      var dp := points[index];
      if dp.entry.Some? then Some(dp.entry.value.filePath)
      else if dp.linkPath.Some? && dp.linkPath.value != "" then dp.linkPath
      else None
    else None
  }

  /** The overlay label's link: the link path when present (none when it is empty), else the entry's file path when non-empty. */
  function OverlayTarget(dp: DataPoint): (r: Option<string>)
    ensures r.Some? ==> r.value != ""
    ensures dp.linkPath.Some? ==> r == (if dp.linkPath.value != "" then dp.linkPath else None)
    ensures dp.linkPath.None? && dp.entry.Some? && dp.entry.value.filePath != "" ==> r == Some(dp.entry.value.filePath)
    ensures dp.linkPath.None? && dp.entry.Some? && dp.entry.value.filePath == "" ==> r.None?
    ensures dp.linkPath.None? && dp.entry.None? ==> r.None?
  {
    var t := if dp.linkPath.Some? then dp.linkPath
             else if dp.entry.Some? then Some(dp.entry.value.filePath)
             else None;
    if t.Some? && t.value != "" then t else None
  }

  /**
   * Some point has a non-empty link path or an entry: the overlay is needed,
   * exactly when some category of the chart opens a path on a click.
   */
  function HasLinks(points: seq<DataPoint>): (r: bool)
    ensures r <==> exists j :: 0 <= j < |points| && ClickTarget(points, j).Some?
  {
    assert forall j :: 0 <= j < |points| ==>
      (ClickTarget(points, j).Some? <==> (points[j].linkPath.Some? && points[j].linkPath.value != "") || points[j].entry.Some?);
    exists j :: 0 <= j < |points| && ((points[j].linkPath.Some? && points[j].linkPath.value != "") || points[j].entry.Some?)
  }

  /** One overlay label per category: its text and, when it is a link, the path it opens. */
  datatype OverlayLabel = OverlayLabel(text: string, link: Option<string>)

  /** The labels `renderCustomLabels` creates, in category order (positions are not modelled). */
  function OverlayLabels(points: seq<DataPoint>): (r: seq<OverlayLabel>)
    ensures |r| == |points|
  {
    seq(|points|, j requires 0 <= j < |points| => OverlayLabel(points[j].labelText, OverlayTarget(points[j])))
  }

  /**
   * A point carries an entry or a link path but not both (as every built point
   * does), so the chart and its overlay label open the same path.
   */
  lemma TargetsAgree(points: seq<DataPoint>, j: int)
    requires 0 <= j < |points|
    requires points[j].entry.None? || points[j].linkPath.None?
    requires points[j].entry.Some? ==> points[j].entry.value.filePath != ""
    ensures ClickTarget(points, j) == OverlayTarget(points[j])
    ensures OverlayLabels(points)[j].link == ClickTarget(points, j)
  {
  }

  /**
   * The overlay is created exactly when some overlay label is a link, provided
   * link paths and entry paths are non-empty.
   */
  lemma OverlayOnlyWithLinks(points: seq<DataPoint>)
    requires forall j :: 0 <= j < |points| && points[j].linkPath.Some? ==> points[j].linkPath.value != ""
    requires forall j :: 0 <= j < |points| && points[j].entry.Some? ==> points[j].entry.value.filePath != ""
    ensures HasLinks(points) <==> exists j :: 0 <= j < |points| && OverlayLabels(points)[j].link.Some?
  {
    if HasLinks(points) {
      var j :| 0 <= j < |points| && ((points[j].linkPath.Some? && points[j].linkPath.value != "") || points[j].entry.Some?);
      assert OverlayLabels(points)[j].link.Some?;
    }
  }
}

=== FILE: examples.dfy ===
/** Concrete inputs worked through the model: the label resolver, both modes and the sort. */
module Examples {
  import opened Wrappers
  import opened WikiLink
  import opened Aggregation
  import opened Points
  import opened LabelOrder
  import opened ChartAssembly
  import opened LineChartView

  /** `[[notes/a|Alpha]]`: the alias is the display name, the path is `notes/a`. */
  lemma AliasedLink()
    ensures ParseWikiLink("[[notes/a|Alpha]]") == Label("Alpha", Some("notes/a"))
  {
    assert Render("notes/a", Some("Alpha")) == "[[notes/a|Alpha]]";
    ParseAliased("notes/a", "Alpha");
  }

  /** `[[notes/a]]`: the display name is the last segment `a`. */
  lemma BareLink()
    ensures ParseWikiLink("[[notes/a]]") == Label("a", Some("notes/a"))
  {
    assert Render("notes/a", None) == "[[notes/a]]";
    ParseBare("notes/a");
    LastSegmentOfNotesA();
  }

  lemma LastSegmentOfNotesA()
    ensures LastSegment("notes/a") == "a"
  {
    var p := "notes/a";
    assert p[|p| - 1] == 'a' && p[..|p| - 1] == "notes/";
    var q := "notes/";
    assert q[|q| - 1] == '/';
  }

  /** Plain text is its own display name and has no path. */
  lemma PlainText()
    ensures ParseWikiLink("plain") == Label("plain", None)
  {
    var t := "plain";
    assert t[..2][0] == 'p';
    assert MatchWikiLink(t) == None;
  }

  /**
   * A bare link whose path ends with `/` shows an empty name: splitting at `/`
   * leaves an empty last piece, never none, so the fallback to the whole path
   * never applies.
   */
  lemma TrailingSlashShowsEmptyName()
    ensures ParseWikiLink("[[notes/]]") == Label("", Some("notes/"))
  {
    assert Render("notes/", None) == "[[notes/]]";
    ParseBare("notes/");
  }

  function ScoreEntry(name: string, v: Option<real>): Entry {
    Entry(name + ".md", name, if v.Some? then map["note.score" := Value("", v)] else map[])
  }

  /** A one-property selection gives a one-key map. */
  lemma SeriesMapSingle(p: string, f: string -> Option<real>)
    ensures SeriesMap([p], f) == map[p := f(p)]
  {
  }

  /** A group key that is not a wiki link is its own label, without a path. */
  lemma PlainKey(t: string)
    requires |t| >= 2 && t[0] != '['
    ensures ParseWikiLink(t) == Label(t, None)
  {
    assert t[..2][0] == t[0];
  }

  lemma ScoresOfGroupOne()
    ensures NumericValues([ScoreEntry("a", Some(2.0)), ScoreEntry("b", Some(4.0))], "note.score") == [2.0, 4.0]
  {
    var es := [ScoreEntry("a", Some(2.0)), ScoreEntry("b", Some(4.0))];
    assert Coerce(es[0], "note.score") == Some(2.0);
    assert Coerce(es[1], "note.score") == Some(4.0);
    assert es[..1] == [es[0]] && es[..1][..0] == [];
  }

  /** Group "G1" with scores 2 and 4 averages to 3. */
  lemma GroupOneAverage()
    ensures GroupPoint(Group(Some("G1"), true, [ScoreEntry("a", Some(2.0)), ScoreEntry("b", Some(4.0))]), ["note.score"], Avg)
         == DataPoint("G1", map["note.score" := Some(3.0)], None, None)
  {
    var g1 := Group(Some("G1"), true, [ScoreEntry("a", Some(2.0)), ScoreEntry("b", Some(4.0))]);
    PlainKey("G1");
    ScoresOfGroupOne();
    assert Total([2.0, 4.0]) == 6.0 by { assert [2.0, 4.0][..1] == [2.0] && [2.0][..0] == []; }
    assert Aggregate([2.0, 4.0], Avg) == Some(3.0);
    SeriesMapSingle("note.score", p => Aggregate(NumericValues(g1.entries, p), Avg));
  }

  lemma ScoresOfGroupTwo()
    ensures NumericValues([ScoreEntry("c", Some(6.0))], "note.score") == [6.0]
  {
    var es := [ScoreEntry("c", Some(6.0))];
    assert Coerce(es[0], "note.score") == Some(6.0);
    assert es[..0] == [];
  }

  /** Group "G2" with score 6 averages to 6. */
  lemma GroupTwoAverage()
    ensures GroupPoint(Group(Some("G2"), true, [ScoreEntry("c", Some(6.0))]), ["note.score"], Avg)
         == DataPoint("G2", map["note.score" := Some(6.0)], None, None)
  {
    var g2 := Group(Some("G2"), true, [ScoreEntry("c", Some(6.0))]);
    PlainKey("G2");
    ScoresOfGroupTwo();
    assert Total([6.0]) == 6.0 by { assert [6.0][..0] == []; }
    assert Aggregate([6.0], Avg) == Some(6.0);
    SeriesMapSingle("note.score", p => Aggregate(NumericValues(g2.entries, p), Avg));
    assert GroupValues(g2, ["note.score"], Avg) == map["note.score" := Some(6.0)];
  }

  /** Two groups that both have a value give two points, in group order. */
  lemma TwoGroups(g1: Group, g2: Group, props: seq<string>, m: Method, xProp: string)
    requires HasValue(GroupPoint(g1, props, m)) && HasValue(GroupPoint(g2, props, m))
    ensures BuildPoints([g1, g2], props, m, xProp) == [GroupPoint(g1, props, m), GroupPoint(g2, props, m)]
  {
    assert IsGrouped([g1, g2]);
    KeptTwo(g1, g2, g => GroupPoint(g, props, m));
  }

  /** Groups "G1" (scores 2 and 4) and "G2" (score 6) yield the points 3 and 6, in group order. */
  lemma GroupedAverage()
    ensures var groups := [Group(Some("G1"), true, [ScoreEntry("a", Some(2.0)), ScoreEntry("b", Some(4.0))]),
                           Group(Some("G2"), true, [ScoreEntry("c", Some(6.0))])];
      BuildPoints(groups, ["note.score"], Avg, "file.name") ==
        [DataPoint("G1", map["note.score" := Some(3.0)], None, None),
         DataPoint("G2", map["note.score" := Some(6.0)], None, None)]
  {
    var g1 := Group(Some("G1"), true, [ScoreEntry("a", Some(2.0)), ScoreEntry("b", Some(4.0))]);
    var g2 := Group(Some("G2"), true, [ScoreEntry("c", Some(6.0))]);
    var props := ["note.score"];
    var p1 := DataPoint("G1", map["note.score" := Some(3.0)], None, None);
    var p2 := DataPoint("G2", map["note.score" := Some(6.0)], None, None);
    GroupOneAverage();
    GroupTwoAverage();
    assert "note.score" in p1.values && p1.values["note.score"].Some?;
    assert "note.score" in p2.values && p2.values["note.score"].Some?;
    TwoGroups(g1, g2, props, Avg, "file.name");
  }

  /** The entries of the flat example: only "y" has no numeric score. */
  lemma FlatEntryPoints()
    ensures var point := e => EntryPoint(e, ["note.score"], "file.name");
      && HasValue(point(ScoreEntry("x", Some(5.0))))
      && !HasValue(point(ScoreEntry("y", None)))
      && HasValue(point(ScoreEntry("z", Some(7.0))))
  {
    var props := ["note.score"];
    var px := EntryPoint(ScoreEntry("x", Some(5.0)), props, "file.name");
    var py := EntryPoint(ScoreEntry("y", None), props, "file.name");
    var pz := EntryPoint(ScoreEntry("z", Some(7.0)), props, "file.name");
    SeriesMapSingle("note.score", p => Coerce(ScoreEntry("x", Some(5.0)), p));
    SeriesMapSingle("note.score", p => Coerce(ScoreEntry("y", None), p));
    SeriesMapSingle("note.score", p => Coerce(ScoreEntry("z", Some(7.0)), p));
    assert px.values == map["note.score" := Some(5.0)];
    assert py.values == map["note.score" := None];
    assert pz.values == map["note.score" := Some(7.0)];
    assert "note.score" in px.values && px.values["note.score"].Some?;
    assert "note.score" in pz.values && pz.values["note.score"].Some?;
  }

  /**
   * Flat mode: entries "x", "y", "z" with scores 5, null and 7 yield points for
   * "x" and "z" only, each carrying its entry.
   */
  lemma FlatDropsNull()
    ensures var x, y, z := ScoreEntry("x", Some(5.0)), ScoreEntry("y", None), ScoreEntry("z", Some(7.0));
      BuildPoints([Group(None, false, [x, y, z])], ["note.score"], Avg, "file.name") ==
        [EntryPoint(x, ["note.score"], "file.name"), EntryPoint(z, ["note.score"], "file.name")]
  {
    var x, y, z := ScoreEntry("x", Some(5.0)), ScoreEntry("y", None), ScoreEntry("z", Some(7.0));
    var props := ["note.score"];
    FlatEntryPoints();
    EntryPointsOne(x, props, "file.name");
    EntryPointsOne(y, props, "file.name");
    EntryPointsOne(z, props, "file.name");
    EntryPointsAppend([x], [y], props, "file.name");
    EntryPointsAppend([x, y], [z], props, "file.name");
    assert [x] + [y] == [x, y] && [x, y] + [z] == [x, y, z];
    var gs := [Group(None, false, [x, y, z])];
    assert gs[..0] == [];
    assert FlatPoints(gs, props, "file.name") == [] + EntryPoints([x, y, z], props, "file.name");
  }

  function LabelPoint(s: string): DataPoint {
    DataPoint(s, map[], None, None)
  }

  function SampleNumber(s: string): Option<real> {
    if s == "10" then Some(10.0) else if s == "2" then Some(2.0) else None
  }

  /** Labels "10", "2", "banana" sort to "2", "10", "banana". */
  lemma MixedLabelSort()
    ensures Sorted([LabelPoint("10"), LabelPoint("2"), LabelPoint("banana")], SampleNumber)
         == [LabelPoint("2"), LabelPoint("10"), LabelPoint("banana")]
  {
    var a, b, c := LabelPoint("10"), LabelPoint("2"), LabelPoint("banana");
    var s := [a, b, c];
    assert s[..2] == [a, b] && [a, b][..1] == [a] && [a][..0] == [];
    assert Sorted([a], SampleNumber) == [a];
    assert SampleNumber("10") == Some(10.0) && SampleNumber("2") == Some(2.0);
    assert !InOrder(a, b, SampleNumber);
    assert [a][..0] == [];
    assert Insert([a], b, SampleNumber) == [b, a];
    assert Sorted([a, b], SampleNumber) == [b, a];
    assert SampleNumber("banana") == None;
    assert LexCompare("10", "banana") == -1;
    assert InOrder(a, c, SampleNumber);
    assert Insert([b, a], c, SampleNumber) == [b, a, c];
  }

  /** A y minimum of "0" and an empty y maximum: the axis starts at parseFloat("0") and has no ceiling. */
  lemma ZeroFloorNoCeiling(groups: seq<Group>, order: seq<string>, host: Host)
    requires Project(groups, Config(order, None, Some("0"), Some(""), None), host).Ready?
    ensures var d := Project(groups, Config(order, None, Some("0"), Some(""), None), host).description;
      d.yMin == host.parseFloat("0") && d.yMax.None?
  {
    ProjectReadyDescription(groups, Config(order, None, Some("0"), Some(""), None), host);
  }
}

=== FILE: label_order.dfy ===
/**
 * The order resolver: `dataPoints.sort(...)` with a comparator that compares two
 * labels numerically when both parse as numbers and as text otherwise.
 *
 * `Number(label)` is the host parameter `number` (None standing for NaN), and
 * `localeCompare` is modelled as lexicographic order on character codes. The
 * array is sorted in place by a stable insertion sort, specified by the function
 * `Sorted`; JavaScript's `Array.prototype.sort` is stable too.
 */
module LabelOrder {
  import opened Wrappers
  import opened Points

  /** `a.localeCompare(b)` as lexicographic comparison: -1, 0 or 1. */
  function LexCompare(a: string, b: string): (r: int)
    ensures -1 <= r <= 1
    ensures r == 0 <==> a == b
  {
    if a == [] && b == [] then 0
    else if a == [] then -1
    else if b == [] then 1
    else if a[0] < b[0] then -1
    else if a[0] > b[0] then 1
    else
      assert a == [a[0]] + a[1..] && b == [b[0]] + b[1..];
      LexCompare(a[1..], b[1..])
  }

  /** Swapping the arguments negates the text comparison. */
  lemma {:induction false} LexAntisymmetric(a: string, b: string)
    ensures LexCompare(a, b) == -LexCompare(b, a)
  {
    if a != [] && b != [] && a[0] == b[0] {
      LexAntisymmetric(a[1..], b[1..]);
    }
  }

  /** The text comparison is transitive: it is a total order. */
  lemma {:induction false} LexTransitive(a: string, b: string, c: string)
    requires LexCompare(a, b) <= 0 && LexCompare(b, c) <= 0
    ensures LexCompare(a, c) <= 0
  {
    if a != [] && b != [] && c != [] && a[0] == b[0] && b[0] == c[0] {
      LexTransitive(a[1..], b[1..], c[1..]);
    }
  }

  /**
   * The sort comparator: `aNum - bNum` when both labels are numbers, otherwise
   * the text comparison. Only its sign matters.
   */
  function LabelCompare(a: string, b: string, number: string -> Option<real>): (r: real)
    ensures number(a).Some? && number(b).Some? ==> (r <= 0.0 <==> number(a).value <= number(b).value)
    ensures number(a).None? || number(b).None? ==> (r == 0.0 <==> a == b) && (r < 0.0 <==> LexCompare(a, b) < 0)
  {
    var an, bn := number(a), number(b);
    if an.Some? && bn.Some? then an.value - bn.value else LexCompare(a, b) as real
  }

  /**
   * Both operands decide together whether the comparison is numeric, so the
   * comparator is antisymmetric even on mixed labels.
   */
  lemma CompareAntisymmetric(a: string, b: string, number: string -> Option<real>)
    ensures LabelCompare(a, b, number) == -LabelCompare(b, a, number)
  {
    LexAntisymmetric(a, b);
  }

  /** `a` does not belong after `b`. */
  predicate InOrder(a: DataPoint, b: DataPoint, number: string -> Option<real>) {
    LabelCompare(a.labelText, b.labelText, number) <= 0.0
  }

  /** Inserts `x` into `s` from the right, passing every element greater than `x`. */
  function Insert(s: seq<DataPoint>, x: DataPoint, number: string -> Option<real>): seq<DataPoint> {
    if s == [] then [x]
    else if !InOrder(s[|s| - 1], x, number) then Insert(s[..|s| - 1], x, number) + [s[|s| - 1]]
    else s + [x]
  }

  /** The sorted order of `s`: insertion of each point, left to right. */
  function Sorted(s: seq<DataPoint>, number: string -> Option<real>): seq<DataPoint> {
    if s == [] then [] else Insert(Sorted(s[..|s| - 1], number), s[|s| - 1], number)
  }

  /** Every neighbouring pair is in comparator order. */
  predicate AdjacentOrdered(s: seq<DataPoint>, number: string -> Option<real>) {
    forall i :: 0 < i < |s| ==> InOrder(s[i - 1], s[i], number)
  }

  lemma {:induction false} InsertPermutes(s: seq<DataPoint>, x: DataPoint, number: string -> Option<real>)
    ensures multiset(Insert(s, x, number)) == multiset(s) + multiset{x}
  {
    if s != [] && !InOrder(s[|s| - 1], x, number) {
      InsertPermutes(s[..|s| - 1], x, number);
      assert s == s[..|s| - 1] + [s[|s| - 1]];
    }
  }

  /** Dropping the last element removes it from the multiset. */
  lemma MultisetStep<T>(s: seq<T>, init: seq<T>, last: T)
    requires s != [] && init == s[..|s| - 1] && last == s[|s| - 1]
    ensures multiset(s) == multiset(init) + multiset{last}
  {
    assert s == init + [last];
  }

  /** The sort's output is a permutation of its input. */
  lemma {:induction false} SortedPermutes(s: seq<DataPoint>, number: string -> Option<real>)
    ensures multiset(Sorted(s, number)) == multiset(s)
    ensures |Sorted(s, number)| == |s|
  {
    if s != [] {
      var init, last := s[..|s| - 1], s[|s| - 1];
      var r0 := Sorted(init, number);
      SortedPermutes(init, number);
      InsertPermutes(r0, last, number);
      InsertLast(r0, last, number);
      assert Sorted(s, number) == Insert(r0, last, number);
      MultisetStep(s, init, last);
    }
  }

  /** Every point of the sorted sequence comes from its input. */
  lemma SortedMembers(s: seq<DataPoint>, number: string -> Option<real>)
    ensures forall j :: 0 <= j < |Sorted(s, number)| ==> Sorted(s, number)[j] in s
  {
    var r := Sorted(s, number);
    SortedPermutes(s, number);
    forall j | 0 <= j < |r| ensures r[j] in s {
      assert r[j] in multiset(r);
    }
  }

  /** The last element after inserting `x` is `x` or the former last element. */
  lemma {:induction false} InsertLast(s: seq<DataPoint>, x: DataPoint, number: string -> Option<real>)
    ensures |Insert(s, x, number)| == |s| + 1
    ensures var r := Insert(s, x, number);
      r[|r| - 1] == x || (s != [] && r[|r| - 1] == s[|s| - 1])
  {
    if s != [] && !InOrder(s[|s| - 1], x, number) {
      InsertLast(s[..|s| - 1], x, number);
    }
  }

  /** Inserting into a neighbour-ordered sequence keeps it neighbour-ordered. */
  lemma {:induction false} InsertOrdered(s: seq<DataPoint>, x: DataPoint, number: string -> Option<real>)
    requires AdjacentOrdered(s, number)
    ensures AdjacentOrdered(Insert(s, x, number), number)
  {
    if s != [] && !InOrder(s[|s| - 1], x, number) {
      var init, last := s[..|s| - 1], s[|s| - 1];
      InsertOrdered(init, x, number);
      InsertLast(init, x, number);
      var r0 := Insert(init, x, number);
      var r := r0 + [last];
      CompareAntisymmetric(last.labelText, x.labelText, number);
      assert InOrder(r0[|r0| - 1], last, number);
      forall i | 0 < i < |r| ensures InOrder(r[i - 1], r[i], number) {
        if i < |r0| {
          assert r[i - 1] == r0[i - 1] && r[i] == r0[i];
        }
      }
    }
  }

  /** The sort's output has every neighbouring pair in comparator order. */
  lemma {:induction false} SortedOrdered(s: seq<DataPoint>, number: string -> Option<real>)
    ensures AdjacentOrdered(Sorted(s, number), number)
  {
    if s != [] {
      SortedOrdered(s[..|s| - 1], number);
      InsertOrdered(Sorted(s[..|s| - 1], number), s[|s| - 1], number);
    }
  }

  /** Every label of `s` parses as a number. */
  predicate AllNumeric(s: seq<DataPoint>, number: string -> Option<real>) {
    forall i :: 0 <= i < |s| ==> number(s[i].labelText).Some?
  }

  /** No label of `s` parses as a number. */
  predicate NoneNumeric(s: seq<DataPoint>, number: string -> Option<real>) {
    forall i :: 0 <= i < |s| ==> number(s[i].labelText).None?
  }

  lemma {:induction false} NumericChain(s: seq<DataPoint>, number: string -> Option<real>, i: nat, j: nat)
    requires AllNumeric(s, number) && AdjacentOrdered(s, number)
    requires i <= j < |s|
    ensures number(s[i].labelText).value <= number(s[j].labelText).value
    decreases j - i
  {
    if i < j {
      NumericChain(s, number, i, j - 1);
      assert InOrder(s[j - 1], s[j], number);
    }
  }

  lemma {:induction false} TextChain(s: seq<DataPoint>, number: string -> Option<real>, i: nat, j: nat)
    requires NoneNumeric(s, number) && AdjacentOrdered(s, number)
    requires i <= j < |s|
    ensures LexCompare(s[i].labelText, s[j].labelText) <= 0
    decreases j - i
  {
    if i < j {
      TextChain(s, number, i, j - 1);
      assert InOrder(s[j - 1], s[j], number);
      LexTransitive(s[i].labelText, s[j - 1].labelText, s[j].labelText);
    }
  }

  /** When every label is a number, the sorted points are in non-decreasing numeric order. */
  lemma SortedNumeric(s: seq<DataPoint>, number: string -> Option<real>)
    requires AllNumeric(s, number)
    ensures var r := Sorted(s, number);
      && AllNumeric(r, number)
      && forall i, j :: 0 <= i <= j < |r| ==> number(r[i].labelText).value <= number(r[j].labelText).value
  {
    var r := Sorted(s, number);
    SortedPermutes(s, number);
    SortedOrdered(s, number);
    forall k | 0 <= k < |r| ensures number(r[k].labelText).Some? {
      assert r[k] in multiset(s);
    }
    forall i, j | 0 <= i <= j < |r| ensures number(r[i].labelText).value <= number(r[j].labelText).value {
      NumericChain(r, number, i, j);
    }
  }

  /** When no label is a number, the sorted points are in lexicographic order. */
  lemma SortedText(s: seq<DataPoint>, number: string -> Option<real>)
    requires NoneNumeric(s, number)
    ensures var r := Sorted(s, number);
      forall i, j :: 0 <= i <= j < |r| ==> LexCompare(r[i].labelText, r[j].labelText) <= 0
  {
    var r := Sorted(s, number);
    SortedPermutes(s, number);
    SortedOrdered(s, number);
    forall k | 0 <= k < |r| ensures number(r[k].labelText).None? {
      assert r[k] in multiset(s);
    }
    forall i, j | 0 <= i <= j < |r| ensures LexCompare(r[i].labelText, r[j].labelText) <= 0 {
      TextChain(r, number, i, j);
    }
  }

  /** Inserting past a greater last element. */
  lemma InsertPasses(s: seq<DataPoint>, x: DataPoint, number: string -> Option<real>)
    requires s != [] && !InOrder(s[|s| - 1], x, number)
    ensures Insert(s, x, number) == Insert(s[..|s| - 1], x, number) + [s[|s| - 1]]
  {
  }

  /** Inserting stops at the front or after an element that is in order with `x`. */
  lemma InsertStops(s: seq<DataPoint>, x: DataPoint, number: string -> Option<real>)
    requires s == [] || InOrder(s[|s| - 1], x, number)
    ensures Insert(s, x, number) == s + [x]
  {
  }

  /** Passing one more element: the split point of the insertion moves one place left. */
  lemma InsertShift(prefix: seq<DataPoint>, x: DataPoint, j: nat, number: string -> Option<real>)
    requires 0 < j <= |prefix| && !InOrder(prefix[j - 1], x, number)
    requires Insert(prefix, x, number) == Insert(prefix[..j], x, number) + prefix[j..]
    ensures Insert(prefix, x, number) == Insert(prefix[..j - 1], x, number) + prefix[j - 1..]
  {
    InsertPasses(prefix[..j], x, number);
    SliceSteps(prefix, j);
  }

  /** Moving a split point one place left. */
  lemma SliceSteps<T>(s: seq<T>, j: nat)
    requires 0 < j <= |s|
    ensures s[..j][..j - 1] == s[..j - 1]
    ensures s[j - 1..] == [s[j - 1]] + s[j..]
  {
  }

  /** Swapping `x` with its left neighbour moves it one place left in the sequence. */
  lemma SwapLeft<T>(prefix: seq<T>, x: T, rest: seq<T>, j: nat)
    requires 0 < j <= |prefix|
    ensures (prefix[..j] + [x] + prefix[j..] + rest)[j - 1 := x][j := prefix[j - 1]]
         == prefix[..j - 1] + [x] + prefix[j - 1..] + rest
  {
  }

  /** Splitting a concatenation at the length of its first part. */
  lemma SplitConcat<T>(u: seq<T>, v: seq<T>)
    ensures (u + v)[..|u|] == u && (u + v)[|u|..] == v
  {
  }

  /** Swaps `x`, at index `j`, with its left neighbour. */
  method SwapDown<T>(a: array<T>, j: nat, ghost prefix: seq<T>, x: T, ghost rest: seq<T>)
    requires 0 < j <= |prefix|
    requires a[..] == prefix[..j] + [x] + prefix[j..] + rest
    modifies a
    ensures a[..] == prefix[..j - 1] + [x] + prefix[j - 1..] + rest
  {
    ghost var before := a[..];
    assert a[j - 1] == before[j - 1] == prefix[j - 1];
    var y := a[j - 1];
    a[j - 1], a[j] := x, y;
    assert a[..] == before[j - 1 := x][j := y];
    SwapLeft(prefix, x, rest, j);
  }

  /** One pass of the sort: moves `a[i]` left past every greater point before it. */
  method InsertLeft(a: array<DataPoint>, i: nat, number: string -> Option<real>)
    requires i < a.Length
    modifies a
    ensures a[..i + 1] == Insert(old(a[..i]), old(a[i]), number)
    ensures a[i + 1..] == old(a[i + 1..])
  {
    ghost var prefix := a[..i];
    ghost var rest := a[i + 1..];
    var x := a[i];
    assert a[..] == prefix + [x] + rest;
    assert prefix[..i] == prefix && prefix[i..] == [];
    var j := i;
    while j > 0 && !InOrder(a[j - 1], a[j], number)
      invariant 0 <= j <= i
      invariant a[..] == prefix[..j] + [x] + prefix[j..] + rest
      invariant Insert(prefix, x, number) == Insert(prefix[..j], x, number) + prefix[j..]
    {
      InsertShift(prefix, x, j, number);
      SwapDown(a, j, prefix, x, rest);
      j := j - 1;
    }
    InsertStops(prefix[..j], x, number);
    SplitConcat(prefix[..j] + [x] + prefix[j..], rest);
    assert a[..i + 1] == (a[..])[..i + 1];
    assert a[i + 1..] == (a[..])[i + 1..];
  }

  /** Sorts the points in place by the label comparator. */
  method SortPoints(a: array<DataPoint>, number: string -> Option<real>)
    modifies a
    ensures a[..] == Sorted(old(a[..]), number)
  {
    ghost var orig := a[..];
    for i := 0 to a.Length
      invariant a[..i] == Sorted(orig[..i], number)
      invariant a[i..] == orig[i..]
    {
      ghost var before := a[..];
      InsertLeft(a, i, number);
      assert before[i + 1..] == orig[i + 1..];
      assert orig[..i + 1][..i] == orig[..i];
    }
    assert orig[..a.Length] == orig;
  }
}

=== FILE: line_chart_view.dfy ===
/**
 * The line-chart view: `onDataUpdated` as one render pass from the query result
 * to either a message or a chart, and the chart handle that every pass must
 * release before it constructs the next one.
 */
module LineChartView {
  import opened Wrappers
  import opened WikiLink
  import opened Aggregation
  import opened Points
  import opened LabelOrder
  import opened ChartAssembly
  import PointBuilder

  /** The view options read by a render pass (fill and point styling are not modelled). */
  datatype Config = Config(
    order: seq<string>,
    xAxisLabelProperty: Option<string>,
    yMin: Option<string>,
    yMax: Option<string>,
    aggregationMethod: Option<Method>)

  const ConfigureMessage := "Please configure Y axis properties in the view options."
  const NoDataMessage := "No valid data points found. Ensure Y axis properties contain numeric values."
  const ContextMessage := "Failed to create canvas context."

  /** What a render pass leads to, before the drawing context is asked for. */
  datatype Projection =
    | NoSeries
    | NoData
    | Ready(points: seq<DataPoint>, description: ChartDescription, hasLinks: bool)

  /**
   * The projection of one render pass: series filter, mode, points, sort, assembly.
   * It is the configuration message exactly when no series is selected; a chart
   * shows a reordering of the built points, one label per point and one dataset
   * per series.
   */
  function Project(groups: seq<Group>, config: Config, host: Host): (r: Projection)
    ensures r.NoSeries? <==> SeriesProperties(config.order) == []
    ensures r.Ready? ==>
      var built := BuildPoints(groups, SeriesProperties(config.order), config.aggregationMethod.GetOr(Avg),
                               XLabelProperty(config.xAxisLabelProperty));
      && multiset(r.points) == multiset(built) && |r.points| > 0
      && |r.description.labels| == |r.points|
      && |r.description.datasets| == |SeriesProperties(config.order)|
  {
    var props := SeriesProperties(config.order);
    if props == [] then NoSeries
    else
      var xProp := XLabelProperty(config.xAxisLabelProperty);
      var grouped := IsGrouped(groups);
      var points := BuildPoints(groups, props, config.aggregationMethod.GetOr(Avg), xProp);
      if points == [] then NoData
      else
        var sorted := Sorted(points, host.number);
        SortedPermutes(points, host.number);
        Ready(sorted,
              Describe(sorted, props, grouped, xProp,
                       YBound(config.yMin, host), YBound(config.yMax, host), host),
              HasLinks(sorted))
  }

  /** The configuration message is shown exactly when no selected property is a `note.` or `formula.` property. */
  lemma ProjectNoSeries(groups: seq<Group>, config: Config, host: Host)
    ensures Project(groups, config, host).NoSeries? <==>
            forall i :: 0 <= i < |config.order| ==> !IsSeriesProperty(config.order[i])
  {
    var props := SeriesProperties(config.order);
    if props != [] {
      assert props[0] in props;
    }
  }

  /** The no-data message is shown exactly when there are series but the builder keeps no point. */
  lemma ProjectNoData(groups: seq<Group>, config: Config, host: Host)
    ensures Project(groups, config, host).NoData? <==>
            var props := SeriesProperties(config.order);
            props != [] &&
            BuildPoints(groups, props, config.aggregationMethod.GetOr(Avg), XLabelProperty(config.xAxisLabelProperty)) == []
  {
  }

  /**
   * The points of a rendered chart are a permutation of the built points, each with
   * some non-null value and a slot for exactly the series; grouped points carry no
   * entry, flat points carry their entry and no link path.
   */
  lemma ProjectReadyPoints(groups: seq<Group>, config: Config, host: Host)
    requires Project(groups, config, host).Ready?
    ensures var props := SeriesProperties(config.order);
      var xProp := XLabelProperty(config.xAxisLabelProperty);
      var built := BuildPoints(groups, props, config.aggregationMethod.GetOr(Avg), xProp);
      var points := Project(groups, config, host).points;
      && multiset(points) == multiset(built)
      && |points| == |built| > 0
      && (forall j :: 0 <= j < |points| ==> HasValue(points[j]))
      && (forall j :: 0 <= j < |points| ==> forall p :: p in points[j].values <==> p in props)
      && (IsGrouped(groups) ==> forall j :: 0 <= j < |points| ==> points[j].entry.None?)
      && (!IsGrouped(groups) ==> forall j :: 0 <= j < |points| ==> points[j].linkPath.None? && points[j].entry.Some?)
  {
    var props := SeriesProperties(config.order);
    var xProp := XLabelProperty(config.xAxisLabelProperty);
    var m := config.aggregationMethod.GetOr(Avg);
    var built := BuildPoints(groups, props, m, xProp);
    var points := Sorted(built, host.number);
    assert Project(groups, config, host).points == points;
    SortedPermutes(built, host.number);
    SortedMembers(built, host.number);
    BuildPointsSpec(groups, props, m, xProp);
    forall j | 0 <= j < |points|
      ensures forall p :: p in points[j].values <==> p in props
    {
      PointKeys(points[j], groups, props, m, xProp);
    }
  }

  /**
   * The description of a rendered chart: one label per point, in point order; one
   * dataset per series and no category where every dataset is null; the x title is
   * "Group" when grouped and the x property's display name otherwise; the y title is
   * the single series' display name, or "Value".
   */
  lemma ProjectReadyDescription(groups: seq<Group>, config: Config, host: Host)
    requires Project(groups, config, host).Ready?
    ensures var props := SeriesProperties(config.order);
      var xProp := XLabelProperty(config.xAxisLabelProperty);
      var r := Project(groups, config, host);
      var points, d := r.points, r.description;
      && |d.labels| == |points|
      && (forall j :: 0 <= j < |points| ==> d.labels[j] == points[j].labelText)
      && |d.datasets| == |props|
      && (forall i :: 0 <= i < |props| ==> d.datasets[i].name == host.displayName(props[i]))
      && (forall j :: 0 <= j < |points| ==> Covered(d.datasets, j))
      && d.xTitle == (if IsGrouped(groups) then "Group" else host.displayName(xProp))
      && d.yTitle == (if |props| == 1 then host.displayName(props[0]) else "Value")
      && (d.yMin.None? <==> config.yMin.None? || config.yMin == Some("") || host.parseFloat(config.yMin.value).None?)
      && (config.yMin.Some? && config.yMin.value != "" ==> d.yMin == host.parseFloat(config.yMin.value))
      && (d.yMax.None? <==> config.yMax.None? || config.yMax == Some("") || host.parseFloat(config.yMax.value).None?)
      && (config.yMax.Some? && config.yMax.value != "" ==> d.yMax == host.parseFloat(config.yMax.value))
  {
    var props := SeriesProperties(config.order);
    ProjectReadyPoints(groups, config, host);
    NoEmptyColumn(props, Project(groups, config, host).points, host);
    if |props| == 1 {
      assert props[0] in props;
      assert IsSeriesProperty(props[0]);
    }
  }

  /** When every label of a rendered chart is a number, its categories are in non-decreasing numeric order. */
  lemma ProjectNumericOrder(groups: seq<Group>, config: Config, host: Host)
    requires Project(groups, config, host).Ready?
    requires var built := BuildPoints(groups, SeriesProperties(config.order), config.aggregationMethod.GetOr(Avg),
                                      XLabelProperty(config.xAxisLabelProperty));
             AllNumeric(built, host.number)
    ensures var points := Project(groups, config, host).points;
      && AllNumeric(points, host.number)
      && forall i, j :: 0 <= i <= j < |points| ==> host.number(points[i].labelText).value <= host.number(points[j].labelText).value
  {
    var built := BuildPoints(groups, SeriesProperties(config.order), config.aggregationMethod.GetOr(Avg),
                             XLabelProperty(config.xAxisLabelProperty));
    SortedNumeric(built, host.number);
  }

  /**
   * The computing half of `onDataUpdated`: filters the series, builds the points
   * with the source's loops, sorts them in an array and assembles the chart.
   */
  method BuildProjection(groups: seq<Group>, config: Config, host: Host) returns (projection: Projection)
    ensures projection == Project(groups, config, host)
  {
    var props := SeriesProperties(config.order);
    var yMin := YBound(config.yMin, host);
    var yMax := YBound(config.yMax, host);
    if |props| == 0 {
      return NoSeries;
    }
    var xProp := XLabelProperty(config.xAxisLabelProperty);
    var m := config.aggregationMethod.GetOr(Avg);
    var grouped := IsGrouped(groups);

    var points: seq<DataPoint>;
    if grouped {
      points := PointBuilder.BuildGroupedPoints(groups, props, m);
    } else {
      points := PointBuilder.BuildFlatPoints(groups, props, xProp);
    }
    if |points| == 0 {
      return NoData;
    }

    var dataPoints := new DataPoint[|points|](k requires 0 <= k < |points| => points[k]);
    assert dataPoints[..] == points;
    SortPoints(dataPoints, host.number);
    var sorted := dataPoints[..];
    projection := Ready(sorted, Describe(sorted, props, grouped, xProp, yMin, yMax, host), HasLinks(sorted));
  }

  /** The children of the view's container element. */
  datatype Element = MessageEl(text: string) | ChartWrapper | CustomLabels

  /** A constructed Chart.js instance: its description and the points its callbacks close over. */
  datatype Chart = Chart(description: ChartDescription, points: seq<DataPoint>)

  function ChartList(c: Option<Chart>): seq<Chart> {
    if c.Some? then [c.value] else []
  }

  class LineChartBasesView {
    /** What the container shows: messages, the chart wrapper, the overlay container. */
    var container: seq<Element>
    /** Whether `canvasEl` and `customLabelsEl` are non-null (the elements themselves are not modelled). */
    var canvasEl: bool
    var customLabelsEl: bool
    /** The live chart handle. */
    var chart: Option<Chart>
    /** Every chart constructed, and every chart released with `destroy()`, in order. */
    ghost var created: seq<Chart>
    ghost var destroyed: seq<Chart>

    /** No chart is leaked: each constructed chart is released, except the live one, which comes last. */
    ghost predicate Valid()
      reads this
    {
      created == destroyed + ChartList(chart)
    }

    constructor ()
      ensures Valid()
      ensures container == [] && !canvasEl && !customLabelsEl && chart == None
      ensures created == [] && destroyed == []
    {
      container := [];
      canvasEl := false;
      customLabelsEl := false;
      chart := None;
      created := [];
      destroyed := [];
    }

    /** `destroyChart`: releases the live chart, if any, and clears the handle. */
    method DestroyChart()
      requires Valid()
      modifies this
      ensures Valid()
      ensures chart == None
      ensures destroyed == old(destroyed) + ChartList(old(chart))
      ensures created == old(created)
      ensures container == old(container) && canvasEl == old(canvasEl) && customLabelsEl == old(customLabelsEl)
    {
      if chart.Some? {
        destroyed := destroyed + [chart.value];
        chart := None;
      }
    }

    /** `onunload`: releases the live chart, so that every constructed chart is released. */
    method OnUnload()
      requires Valid()
      modifies this
      ensures Valid()
      ensures chart == None && destroyed == created
      ensures created == old(created)
      ensures container == old(container) && canvasEl == old(canvasEl) && customLabelsEl == old(customLabelsEl)
    {
      DestroyChart();
    }

    /**
     * The chart-building tail of `onDataUpdated`: adds the chart wrapper and, when
     * some point is a link, the overlay container; releases the previous chart; then
     * either constructs the new chart or, without a drawing context, shows a message.
     */
    method ShowChart(points: seq<DataPoint>, description: ChartDescription, hasLinks: bool, contextAvailable: bool)
      requires Valid()
      modifies this
      ensures Valid()
      ensures container == old(container) + [ChartWrapper] + (if hasLinks then [CustomLabels] else [])
                           + (if contextAvailable then [] else [MessageEl(ContextMessage)])
      ensures canvasEl && customLabelsEl == (hasLinks || old(customLabelsEl))
      ensures destroyed == old(destroyed) + ChartList(old(chart))
      ensures chart == (if contextAvailable then Some(Chart(description, points)) else None)
    {
      container := container + [ChartWrapper];
      canvasEl := true;
      if hasLinks {
        container := container + [CustomLabels];
        customLabelsEl := true;
      }
      DestroyChart();
      if !contextAvailable {
        container := container + [MessageEl(ContextMessage)];
        return;
      }
      var c := Chart(description, points);
      chart := Some(c);
      created := created + [c];
    }

    /**
     * The rendering half of `onDataUpdated`: clears the container, then shows the
     * configuration message, the no-data message, or the chart of the projection.
     */
    method Present(projection: Projection, contextAvailable: bool)
      requires Valid()
      modifies this
      ensures Valid()
      ensures chart.Some? || (container != [] && container[|container| - 1].MessageEl?)
      ensures match projection
        case NoSeries =>
          && container == [MessageEl(ConfigureMessage)]
          && chart == old(chart) && created == old(created) && destroyed == old(destroyed)
          && canvasEl == old(canvasEl) && customLabelsEl == old(customLabelsEl)
        case NoData =>
          && container == [MessageEl(NoDataMessage)]
          && chart == old(chart) && created == old(created) && destroyed == old(destroyed)
          && canvasEl == old(canvasEl) && customLabelsEl == old(customLabelsEl)
        case Ready(points, description, hasLinks) =>
          && container == [ChartWrapper] + (if hasLinks then [CustomLabels] else [])
                          + (if contextAvailable then [] else [MessageEl(ContextMessage)])
          && canvasEl && customLabelsEl == (hasLinks || old(customLabelsEl))
          && destroyed == old(destroyed) + ChartList(old(chart))
          && chart == (if contextAvailable then Some(Chart(description, points)) else None)
    {
      container := [];
      match projection
      case NoSeries =>
        container := container + [MessageEl(ConfigureMessage)];
      case NoData =>
        container := container + [MessageEl(NoDataMessage)];
      case Ready(points, description, hasLinks) =>
        ShowChart(points, description, hasLinks, contextAvailable);
    }

    /**
     * `onDataUpdated`: clears the container and shows the configuration message,
     * the no-data message, or the chart of the projection; a new chart is built only
     * after the previous one is released, and a missing drawing context
     * (`contextAvailable` false) leaves a message and no chart.
     */
    method OnDataUpdated(groups: seq<Group>, config: Config, host: Host, contextAvailable: bool)
      requires Valid()
      modifies this
      ensures Valid()
      ensures chart.Some? || (container != [] && container[|container| - 1].MessageEl?)
      ensures match Project(groups, config, host)
        case NoSeries =>
          && container == [MessageEl(ConfigureMessage)]
          && chart == old(chart) && created == old(created) && destroyed == old(destroyed)
          && canvasEl == old(canvasEl) && customLabelsEl == old(customLabelsEl)
        case NoData =>
          && container == [MessageEl(NoDataMessage)]
          && chart == old(chart) && created == old(created) && destroyed == old(destroyed)
          && canvasEl == old(canvasEl) && customLabelsEl == old(customLabelsEl)
        case Ready(points, description, hasLinks) =>
          && container == [ChartWrapper] + (if hasLinks then [CustomLabels] else [])
                          + (if contextAvailable then [] else [MessageEl(ContextMessage)])
          && canvasEl && customLabelsEl == (hasLinks || old(customLabelsEl))
          && destroyed == old(destroyed) + ChartList(old(chart))
          && chart == (if contextAvailable then Some(Chart(description, points)) else None)
    {
      var projection := BuildProjection(groups, config, host);
      Present(projection, contextAvailable);
    }
  }
}

=== FILE: point_builder.dfy ===
/**
 * The nested loops of `onDataUpdated` that push data points, proved to compute the
 * series builder's specification (module Points).
 */
module PointBuilder {
  import opened Wrappers
  import opened WikiLink
  import opened Aggregation
  import opened Points

  /** The inner loop of grouped mode: the numbers the entries hold for one series. */
  method CollectNumeric(entries: seq<Entry>, yProp: string) returns (numericValues: seq<real>)
    ensures numericValues == NumericValues(entries, yProp)
  {
    numericValues := [];
    for k := 0 to |entries|
      invariant numericValues == NumericValues(entries[..k], yProp)
    {
      var val := GetValue(entries[k], yProp);
      if val.Some? {
        var num := val.value.number;
        if num.Some? {
          numericValues := numericValues + [num.value];
        }
      }
      assert entries[..k + 1][..k] == entries[..k];
    }
    assert entries[..|entries|] == entries;
  }

  /** The middle loop of grouped mode: stores every series' aggregate in the group's value map. */
  method AggregateSeries(group: Group, props: seq<string>, m: Method) returns (values: map<string, Option<real>>)
    ensures values == GroupValues(group, props, m)
  {
    ghost var f := p => Aggregate(NumericValues(group.entries, p), m);
    values := map[];
    for j := 0 to |props|
      invariant values == SeriesMap(props[..j], f)
    {
      var yProp := props[j];
      var numericValues := CollectNumeric(group.entries, yProp);
      values := values[yProp := Aggregate(numericValues, m)];
      SeriesMapExtend(props, j, f);
    }
    assert props[..|props|] == props;
  }

  /** Grouped mode: one aggregated point per group with some non-null value. */
  method BuildGroupedPoints(groups: seq<Group>, props: seq<string>, m: Method) returns (points: seq<DataPoint>)
    ensures points == GroupedPoints(groups, props, m)
  {
    points := [];
    for i := 0 to |groups|
      invariant points == GroupedPoints(groups[..i], props, m)
    {
      var group := groups[i];
      var link := ParseWikiLink(GroupLabel(group));
      var values := AggregateSeries(group, props, m);
      var dp := DataPoint(link.displayName, values, None, link.path);
      assert dp == GroupPoint(group, props, m);
      if HasValue(dp) {
        points := points + [dp];
      }
      GroupedPointsStep(groups, i, props, m);
      GroupedPointsOne(group, props, m);
    }
    assert groups[..|groups|] == groups;
  }

  /** The body of the flat loop: the label and the coerced values of one entry. */
  method PointOfEntry(entry: Entry, props: seq<string>, xProp: string) returns (dp: DataPoint)
    ensures dp == EntryPoint(entry, props, xProp)
  {
    ghost var f := p => Coerce(entry, p);
    var labelValue := GetValue(entry, xProp);
    var labelText := if labelValue.Some? then labelValue.value.text else entry.fileName;
    var values: map<string, Option<real>> := map[];
    for j := 0 to |props|
      invariant values == SeriesMap(props[..j], f)
    {
      var yProp := props[j];
      var yValue := GetValue(entry, yProp);
      if yValue.Some? {
        values := values[yProp := yValue.value.number];
      } else {
        values := values[yProp := None];
      }
      SeriesMapExtend(props, j, f);
    }
    assert props[..|props|] == props;
    dp := DataPoint(labelText, values, Some(entry), None);
  }

  /** Flat mode: one point per entry of every group, kept when some value is non-null. */
  method BuildFlatPoints(groups: seq<Group>, props: seq<string>, xProp: string) returns (points: seq<DataPoint>)
    ensures points == FlatPoints(groups, props, xProp)
  {
    points := [];
    for i := 0 to |groups|
      invariant points == FlatPoints(groups[..i], props, xProp)
    {
      var entries := groups[i].entries;
      ghost var before := points;
      for k := 0 to |entries|
        invariant points == before + EntryPoints(entries[..k], props, xProp)
      {
        var dp := PointOfEntry(entries[k], props, xProp);
        if HasValue(dp) {
          points := points + [dp];
        }
        assert entries[..k + 1][..k] == entries[..k];
      }
      assert entries[..|entries|] == entries;
      assert groups[..i + 1][..i] == groups[..i];
    }
    assert groups[..|groups|] == groups;
  }
}

=== FILE: points.dfy ===
/**
 * Entries, groups and data points, and the specification of the series builder:
 * which data points a result set yields in grouped mode (one aggregated point per
 * group) and in flat mode (one point per entry).
 */
module Points {
  import opened Wrappers
  import opened WikiLink
  import opened Aggregation

  /**
   * A property value that is neither null nor undefined: its `toString()` text,
   * and `Number(value)` with None standing for NaN.
   */
  datatype Value = Value(text: string, number: Option<real>)

  /** A query row: its file's path and name, and its properties by identifier. */
  datatype Entry = Entry(filePath: string, fileName: string, properties: map<string, Value>)

  /**
   * A group of entries: the text of its key (None when the key is null or
   * undefined), what `hasKey()` reports, and its entries.
   */
  datatype Group = Group(key: Option<string>, hasKey: bool, entries: seq<Entry>)

  /** One plotted category: its label (`labelText`, since `label` is a Dafny keyword), value per series property, and what a click opens. */
  datatype DataPoint = DataPoint(
    labelText: string,
    values: map<string, Option<real>>,
    entry: Option<Entry>,
    linkPath: Option<string>)

  /** An entry's value for a property, None when it is null or undefined. */
  function GetValue(e: Entry, prop: string): Option<Value> {
    if prop in e.properties then Some(e.properties[prop]) else None
  }

  // ---------------------------------------------------------------- series selection

  predicate StartsWith(s: string, prefix: string) {
    |prefix| <= |s| && s[..|prefix|] == prefix
  }

  /** A selected property that can be plotted: a `note.` or `formula.` property. */
  predicate IsSeriesProperty(p: string) {
    StartsWith(p, "note.") || StartsWith(p, "formula.")
  }

  /** The plottable selected properties, in their selection order. */
  function SeriesProperties(order: seq<string>): (r: seq<string>)
    ensures |r| <= |order|
    ensures forall p :: p in r <==> p in order && IsSeriesProperty(p)
  {
    if order == [] then []
    else
      var init := SeriesProperties(order[..|order| - 1]);
      var last := order[|order| - 1];
      assert order == order[..|order| - 1] + [last];
      if IsSeriesProperty(last) then init + [last] else init
  }

  /** The filter keeps the selection order: it distributes over concatenation. */
  lemma {:induction false} SeriesPropertiesAppend(a: seq<string>, b: seq<string>)
    ensures SeriesProperties(a + b) == SeriesProperties(a) + SeriesProperties(b)
  {
    if b == [] {
      assert a + b == a;
    } else {
      assert (a + b)[..|a + b| - 1] == a + b[..|b| - 1];
      SeriesPropertiesAppend(a, b[..|b| - 1]);
    }
  }

  // ---------------------------------------------------------------- mode detection

  /**
   * `isGrouped`: more than one group, or exactly one group that has a key; so
   * flat mode is no group at all or a single group without a key.
   */
  function IsGrouped(groups: seq<Group>): (grouped: bool)
    ensures grouped ==> groups != []
    ensures !grouped <==> groups == [] || (|groups| == 1 && !groups[0].hasKey)
  {
    |groups| > 1 || (|groups| == 1 && groups[0].hasKey)
  }

  // ---------------------------------------------------------------- value extraction

  /** The series value of one entry: `Number(value)` unless the value is missing or NaN. */
  function Coerce(e: Entry, prop: string): (r: Option<real>)
    ensures r.Some? <==> prop in e.properties && e.properties[prop].number.Some?
    ensures r.Some? ==> r == e.properties[prop].number
  {
    match GetValue(e, prop)
    case Some(v) => v.number
    case None => None
  }

  /** The numbers a group contributes to one series, in entry order. */
  function NumericValues(entries: seq<Entry>, prop: string): (r: seq<real>)
    ensures |r| <= |entries|
    ensures r == [] <==> forall i :: 0 <= i < |entries| ==> Coerce(entries[i], prop).None?
  {
    if entries == [] then []
    else
      var init := NumericValues(entries[..|entries| - 1], prop);
      var last := entries[|entries| - 1];
      assert forall i :: 0 <= i < |entries| - 1 ==> entries[..|entries| - 1][i] == entries[i];
      match Coerce(last, prop)
      case Some(x) => init + [x]
      case None => init
  }

  /** A number is collected exactly when some entry of the group coerces to it. */
  lemma {:induction false} NumericValuesMembers(entries: seq<Entry>, prop: string)
    ensures forall x :: x in NumericValues(entries, prop) <==>
              exists i :: 0 <= i < |entries| && Coerce(entries[i], prop) == Some(x)
  {
    if entries != [] {
      var init := entries[..|entries| - 1];
      NumericValuesMembers(init, prop);
      assert forall i :: 0 <= i < |init| ==> init[i] == entries[i];
      forall x | exists i :: 0 <= i < |entries| && Coerce(entries[i], prop) == Some(x)
        ensures x in NumericValues(entries, prop)
      {
        var i :| 0 <= i < |entries| && Coerce(entries[i], prop) == Some(x);
        if i < |init| {
          assert Coerce(init[i], prop) == Some(x);
        }
      }
    }
  }

  /** Collecting over two runs of entries collects the first run's numbers, then the second's. */
  lemma {:induction false} NumericValuesAppend(a: seq<Entry>, b: seq<Entry>, prop: string)
    ensures NumericValues(a + b, prop) == NumericValues(a, prop) + NumericValues(b, prop)
  {
    if b == [] {
      assert a + b == a;
    } else {
      assert (a + b)[..|a + b| - 1] == a + b[..|b| - 1];
      NumericValuesAppend(a, b[..|b| - 1], prop);
    }
  }

  /** One entry contributes its number, or nothing when it does not coerce. */
  lemma NumericValuesOne(e: Entry, prop: string)
    ensures NumericValues([e], prop) == if Coerce(e, prop).Some? then [Coerce(e, prop).value] else []
  {
    assert [e][..0] == [];
  }

  /** The number of entries that coerce to a number for `prop`. */
  function CoercingCount(entries: seq<Entry>, prop: string): (n: nat)
    ensures n <= |entries|
  {
    if entries == [] then 0
    else CoercingCount(entries[1..], prop) + (if Coerce(entries[0], prop).Some? then 1 else 0)
  }

  /** One number is collected per entry that coerces. */
  lemma {:induction false} NumericValuesCount(entries: seq<Entry>, prop: string)
    ensures |NumericValues(entries, prop)| == CoercingCount(entries, prop)
  {
    if entries != [] {
      assert entries == [entries[0]] + entries[1..];
      NumericValuesAppend([entries[0]], entries[1..], prop);
      NumericValuesOne(entries[0], prop);
      NumericValuesCount(entries[1..], prop);
    }
  }

  /** The value map holding `f(p)` for every series property `p`. */
  function SeriesMap(props: seq<string>, f: string -> Option<real>): map<string, Option<real>> {
    map p | p in props :: f(p)
  }

  /** Setting one more property extends the map over one more element of the selection. */
  lemma SeriesMapExtend(props: seq<string>, j: nat, f: string -> Option<real>)
    requires j < |props|
    ensures SeriesMap(props[..j + 1], f) == SeriesMap(props[..j], f)[props[j] := f(props[j])]
  {
    assert props[..j + 1] == props[..j] + [props[j]];
  }

  /** A point is kept when at least one of its series values is not null. */
  function HasValue(dp: DataPoint): (kept: bool)
    ensures kept <==> exists v :: v in dp.values.Values && v.Some?
  {
    exists p :: p in dp.values && dp.values[p].Some?
  }

  /**
   * The points of `xs` under `point`, each pushed only when it has a non-null value:
   * the rule shared by both modes.
   */
  function Kept<T>(xs: seq<T>, point: T -> DataPoint): (r: seq<DataPoint>)
    ensures |r| <= |xs|
  {
    if xs == [] then []
    else
      var dp := point(xs[|xs| - 1]);
      Kept(xs[..|xs| - 1], point) + (if HasValue(dp) then [dp] else [])
  }

  /** A single input is kept exactly when its point has a non-null value. */
  lemma KeptOne<T>(x: T, point: T -> DataPoint)
    ensures Kept([x], point) == if HasValue(point(x)) then [point(x)] else []
  {
    assert [x][..0] == [];
  }

  /** Two inputs whose points both have a value are both kept, in order. */
  lemma KeptTwo<T>(x: T, y: T, point: T -> DataPoint)
    requires HasValue(point(x)) && HasValue(point(y))
    ensures Kept([x, y], point) == [point(x), point(y)]
  {
    KeptOne(x, point);
    KeptOne(y, point);
    KeptAppend([x], [y], point);
    assert [x] + [y] == [x, y];
  }

  /** Filtering keeps the input order: it distributes over concatenation. */
  lemma {:induction false} KeptAppend<T>(a: seq<T>, b: seq<T>, point: T -> DataPoint)
    ensures Kept(a + b, point) == Kept(a, point) + Kept(b, point)
  {
    if b == [] {
      assert a + b == a;
    } else {
      assert (a + b)[..|a + b| - 1] == a + b[..|b| - 1];
      KeptAppend(a, b[..|b| - 1], point);
    }
  }

  /**
   * At most one point per input; every kept point is the point of some input and
   * has a non-null value; every input whose point has a non-null value is kept.
   */
  lemma {:induction false} KeptSpec<T>(xs: seq<T>, point: T -> DataPoint)
    ensures var r := Kept(xs, point);
      && |r| <= |xs|
      && (forall k :: 0 <= k < |r| ==> HasValue(r[k]) && exists i :: 0 <= i < |xs| && r[k] == point(xs[i]))
      && (forall i :: 0 <= i < |xs| && HasValue(point(xs[i])) ==> point(xs[i]) in r)
  {
    if xs != [] {
      var init := xs[..|xs| - 1];
      KeptSpec(init, point);
      var r := Kept(xs, point);
      var r0 := Kept(init, point);
      forall k | 0 <= k < |r|
        ensures exists i :: 0 <= i < |xs| && r[k] == point(xs[i])
      {
        if k < |r0| {
          var i :| 0 <= i < |init| && r0[k] == point(init[i]);
          assert init[i] == xs[i];
        } else {
          assert r[k] == point(xs[|xs| - 1]);
        }
      }
      forall i | 0 <= i < |xs| && HasValue(point(xs[i]))
        ensures point(xs[i]) in r
      {
        if i < |init| {
          assert init[i] == xs[i];
        }
      }
    }
  }

  // ---------------------------------------------------------------- grouped mode

  /** A group's label: the text of its key, or "Ungrouped" without one. */
  function GroupLabel(g: Group): (r: string)
    ensures g.key.Some? ==> r == g.key.value
    ensures g.key.None? ==> r == "Ungrouped"
  {
    g.key.GetOr("Ungrouped")
  }

  /** The aggregated value of every series property over one group's entries. */
  function GroupValues(g: Group, props: seq<string>, m: Method): map<string, Option<real>> {
    SeriesMap(props, p => Aggregate(NumericValues(g.entries, p), m))
  }

  /**
   * The data point of one group: the wiki-link label and path of the group label,
   * no entry, and a slot per series holding the aggregate of the group's numbers
   * for it, null exactly when no entry of the group has a numeric value for it.
   */
  function GroupPoint(g: Group, props: seq<string>, m: Method): (r: DataPoint)
    ensures r.entry.None?
    ensures r.labelText == ParseWikiLink(GroupLabel(g)).displayName && r.linkPath == ParseWikiLink(GroupLabel(g)).path
    ensures forall p :: p in r.values <==> p in props
    ensures forall p :: p in props ==>
              (r.values[p].None? <==> forall i :: 0 <= i < |g.entries| ==> Coerce(g.entries[i], p).None?)
    ensures forall p :: p in props ==> r.values[p] == Aggregate(NumericValues(g.entries, p), m)
  {
    var link := ParseWikiLink(GroupLabel(g));
    DataPoint(link.displayName, GroupValues(g, props, m), None, link.path)
  }

  /**
   * What an aggregate `v` over the numbers of some entries is, in terms of those
   * entries: under `min` (`max`) some entry's number, at most (at least) every
   * entry's number; under `count` the number of entries that coerce; under `sum`
   * the total of their numbers, and under `avg` that total over that count.
   */
  ghost predicate AggregateOver(v: real, entries: seq<Entry>, p: string, m: Method) {
    var nums := NumericValues(entries, p);
    && (m.Min? ==>
          (exists i :: 0 <= i < |entries| && Coerce(entries[i], p) == Some(v)) &&
          forall i :: 0 <= i < |entries| && Coerce(entries[i], p).Some? ==> v <= Coerce(entries[i], p).value)
    && (m.Max? ==>
          (exists i :: 0 <= i < |entries| && Coerce(entries[i], p) == Some(v)) &&
          forall i :: 0 <= i < |entries| && Coerce(entries[i], p).Some? ==> Coerce(entries[i], p).value <= v)
    && (m.Count? ==> v == CoercingCount(entries, p) as real)
    && (m.Sum? ==> v == Total(nums))
    && (m.Avg? ==> CoercingCount(entries, p) > 0 && v == Total(nums) / CoercingCount(entries, p) as real)
  }

  /** A non-null slot of a group point is the aggregate over the group's entries, in their terms. */
  lemma GroupSlot(g: Group, props: seq<string>, m: Method, p: string)
    requires p in props && GroupPoint(g, props, m).values[p].Some?
    ensures AggregateOver(GroupPoint(g, props, m).values[p].value, g.entries, p, m)
  {
    assert GroupPoint(g, props, m).values[p] == Aggregate(NumericValues(g.entries, p), m);
    AggregateOfEntries(g.entries, p, m);
  }

  /** The aggregate of the numbers collected from some entries, in terms of those entries. */
  lemma AggregateOfEntries(entries: seq<Entry>, p: string, m: Method)
    requires Aggregate(NumericValues(entries, p), m).Some?
    ensures AggregateOver(Aggregate(NumericValues(entries, p), m).value, entries, p, m)
  {
    var nums := NumericValues(entries, p);
    NumericValuesCount(entries, p);
    match m
    case Min => LeastOfEntries(entries, p);
    case Max => GreatestOfEntries(entries, p);
    case Avg =>
    case Sum =>
    case Count =>
  }

  /** The least collected number is some entry's number and at most every entry's number. */
  lemma LeastOfEntries(entries: seq<Entry>, p: string)
    requires NumericValues(entries, p) != []
    ensures var v := Least(NumericValues(entries, p));
      && (exists i :: 0 <= i < |entries| && Coerce(entries[i], p) == Some(v))
      && forall i :: 0 <= i < |entries| && Coerce(entries[i], p).Some? ==> v <= Coerce(entries[i], p).value
  {
    var nums := NumericValues(entries, p);
    NumericValuesMembers(entries, p);
    forall i | 0 <= i < |entries| && Coerce(entries[i], p).Some?
      ensures Least(nums) <= Coerce(entries[i], p).value
    {
      var x := Coerce(entries[i], p).value;
      assert x in nums;
      var k :| 0 <= k < |nums| && nums[k] == x;
    }
  }

  /** The greatest collected number is some entry's number and at least every entry's number. */
  lemma GreatestOfEntries(entries: seq<Entry>, p: string)
    requires NumericValues(entries, p) != []
    ensures var v := Greatest(NumericValues(entries, p));
      && (exists i :: 0 <= i < |entries| && Coerce(entries[i], p) == Some(v))
      && forall i :: 0 <= i < |entries| && Coerce(entries[i], p).Some? ==> Coerce(entries[i], p).value <= v
  {
    var nums := NumericValues(entries, p);
    NumericValuesMembers(entries, p);
    forall i | 0 <= i < |entries| && Coerce(entries[i], p).Some?
      ensures Coerce(entries[i], p).value <= Greatest(nums)
    {
      var x := Coerce(entries[i], p).value;
      assert x in nums;
      var k :| 0 <= k < |nums| && nums[k] == x;
    }
  }


  /** The grouped-mode points: one per group that has some non-null aggregate, in group order. */
  function GroupedPoints(groups: seq<Group>, props: seq<string>, m: Method): seq<DataPoint> {
    Kept(groups, g => GroupPoint(g, props, m))
  }

  // ---------------------------------------------------------------- flat mode

  /** An entry's label: the text of its x-axis value, or its file name without one. */
  function EntryLabel(e: Entry, xProp: string): (r: string)
    ensures xProp in e.properties ==> r == e.properties[xProp].text
    ensures xProp !in e.properties ==> r == e.fileName
  {
    match GetValue(e, xProp)
    case Some(v) => v.text
    case None => e.fileName
  }

  /** The coerced value of every series property of one entry. */
  function EntryValues(e: Entry, props: seq<string>): map<string, Option<real>> {
    SeriesMap(props, p => Coerce(e, p))
  }

  /** The data point of one entry: its label, its own values, the entry attached, no link path. */
  function EntryPoint(e: Entry, props: seq<string>, xProp: string): (r: DataPoint)
    ensures r.entry == Some(e) && r.linkPath.None?
    ensures r.labelText == EntryLabel(e, xProp)
    ensures forall p :: p in r.values <==> p in props
    ensures forall p :: p in props ==> r.values[p] == Coerce(e, p)
  {
    DataPoint(EntryLabel(e, xProp), EntryValues(e, props), Some(e), None)
  }

  /** The points of a run of entries: one per entry with some non-null value, in entry order. */
  function EntryPoints(entries: seq<Entry>, props: seq<string>, xProp: string): seq<DataPoint> {
    Kept(entries, e => EntryPoint(e, props, xProp))
  }

  /** The flat-mode points: every group's entries in turn. */
  function FlatPoints(groups: seq<Group>, props: seq<string>, xProp: string): seq<DataPoint> {
    if groups == [] then []
    else FlatPoints(groups[..|groups| - 1], props, xProp) + EntryPoints(groups[|groups| - 1].entries, props, xProp)
  }

  /** All entries of all groups, groups in order (the flat path's iteration order). */
  function AllEntries(groups: seq<Group>): seq<Entry> {
    if groups == [] then [] else AllEntries(groups[..|groups| - 1]) + groups[|groups| - 1].entries
  }

  /** The series builder: grouped or flat points according to the mode detector. */
  function BuildPoints(groups: seq<Group>, props: seq<string>, m: Method, xProp: string): (r: seq<DataPoint>)
    ensures IsGrouped(groups) ==> |r| <= |groups|
    ensures !IsGrouped(groups) ==> |r| <= |AllEntries(groups)|
  {
    if IsGrouped(groups) then GroupedPoints(groups, props, m)
    else
      FlatPointsOfAllEntries(groups, props, xProp);
      FlatPoints(groups, props, xProp)
  }

  // ---------------------------------------------------------------- properties of the builder

  /** Grouped points keep the group order: building distributes over concatenation. */
  lemma GroupedPointsAppend(a: seq<Group>, b: seq<Group>, props: seq<string>, m: Method)
    ensures GroupedPoints(a + b, props, m) == GroupedPoints(a, props, m) + GroupedPoints(b, props, m)
  {
    KeptAppend(a, b, g => GroupPoint(g, props, m));
  }

  /** One group yields its point, or nothing when all its aggregates are null. */
  lemma GroupedPointsOne(g: Group, props: seq<string>, m: Method)
    ensures GroupedPoints([g], props, m) ==
            if HasValue(GroupPoint(g, props, m)) then [GroupPoint(g, props, m)] else []
  {
    KeptOne(g, g => GroupPoint(g, props, m));
  }

  /** Extending the prefix of the groups by one group adds its point when it has a value. */
  lemma GroupedPointsStep(groups: seq<Group>, i: nat, props: seq<string>, m: Method)
    requires i < |groups|
    ensures GroupedPoints(groups[..i + 1], props, m) ==
            GroupedPoints(groups[..i], props, m) + GroupedPoints([groups[i]], props, m)
  {
    assert groups[..i + 1] == groups[..i] + [groups[i]];
    GroupedPointsAppend(groups[..i], [groups[i]], props, m);
  }

  /** Entry points keep the entry order: building distributes over concatenation. */
  lemma EntryPointsAppend(a: seq<Entry>, b: seq<Entry>, props: seq<string>, xProp: string)
    ensures EntryPoints(a + b, props, xProp) == EntryPoints(a, props, xProp) + EntryPoints(b, props, xProp)
  {
    KeptAppend(a, b, e => EntryPoint(e, props, xProp));
  }

  /** One entry yields its point, or nothing when all its values are null. */
  lemma EntryPointsOne(e: Entry, props: seq<string>, xProp: string)
    ensures EntryPoints([e], props, xProp) ==
            if HasValue(EntryPoint(e, props, xProp)) then [EntryPoint(e, props, xProp)] else []
  {
    KeptOne(e, e => EntryPoint(e, props, xProp));
  }

  /** Flattening the groups first and building per entry gives the flat-mode points. */
  lemma {:induction false} FlatPointsOfAllEntries(groups: seq<Group>, props: seq<string>, xProp: string)
    ensures FlatPoints(groups, props, xProp) == EntryPoints(AllEntries(groups), props, xProp)
  {
    if groups != [] {
      var init := groups[..|groups| - 1];
      FlatPointsOfAllEntries(init, props, xProp);
      EntryPointsAppend(AllEntries(init), groups[|groups| - 1].entries, props, xProp);
    }
  }

  /**
   * Grouped mode: at most one point per group; each kept point is the point of some
   * group, has a non-null value and no entry; and every group whose point has a
   * non-null value is kept.
   */
  lemma GroupedPointsSpec(groups: seq<Group>, props: seq<string>, m: Method)
    ensures var r := GroupedPoints(groups, props, m);
      && |r| <= |groups|
      && (forall k :: 0 <= k < |r| ==>
            HasValue(r[k]) && r[k].entry.None? &&
            exists i :: 0 <= i < |groups| && r[k] == GroupPoint(groups[i], props, m))
      && (forall i :: 0 <= i < |groups| && HasValue(GroupPoint(groups[i], props, m)) ==>
            GroupPoint(groups[i], props, m) in r)
  {
    KeptSpec(groups, g => GroupPoint(g, props, m));
  }

  /**
   * Entry points: at most one point per entry; each kept point belongs to some entry,
   * carries that entry, has no link path and a non-null value; and every entry whose
   * point has a non-null value is kept.
   */
  lemma EntryPointsSpec(entries: seq<Entry>, props: seq<string>, xProp: string)
    ensures var r := EntryPoints(entries, props, xProp);
      && |r| <= |entries|
      && (forall k :: 0 <= k < |r| ==>
            HasValue(r[k]) && r[k].linkPath.None? &&
            exists i :: 0 <= i < |entries| && r[k] == EntryPoint(entries[i], props, xProp) && r[k].entry == Some(entries[i]))
      && (forall i :: 0 <= i < |entries| && HasValue(EntryPoint(entries[i], props, xProp)) ==>
            EntryPoint(entries[i], props, xProp) in r)
  {
    KeptSpec(entries, e => EntryPoint(e, props, xProp));
  }

  /** Every point of either mode has a value slot for exactly the series properties. */
  lemma PointKeys(dp: DataPoint, groups: seq<Group>, props: seq<string>, m: Method, xProp: string)
    requires dp in BuildPoints(groups, props, m, xProp)
    ensures forall p :: p in dp.values <==> p in props
  {
    var r := BuildPoints(groups, props, m, xProp);
    var k :| 0 <= k < |r| && r[k] == dp;
    if IsGrouped(groups) {
      GroupedPointsSpec(groups, props, m);
    } else {
      FlatPointsOfAllEntries(groups, props, xProp);
      EntryPointsSpec(AllEntries(groups), props, xProp);
    }
  }

  /**
   * The series builder's invariant: every retained point has a non-null value;
   * grouped points carry no entry and the link path of their group's label; flat
   * points carry their entry and no link path.
   */
  lemma BuildPointsSpec(groups: seq<Group>, props: seq<string>, m: Method, xProp: string)
    ensures forall dp :: dp in BuildPoints(groups, props, m, xProp) ==> HasValue(dp)
    ensures IsGrouped(groups) ==> forall dp :: dp in BuildPoints(groups, props, m, xProp) ==>
              dp.entry.None? && exists g :: g in groups && dp.linkPath == ParseWikiLink(GroupLabel(g)).path
    ensures !IsGrouped(groups) ==> forall dp :: dp in BuildPoints(groups, props, m, xProp) ==>
              dp.linkPath.None? && dp.entry.Some? && dp.entry.value in AllEntries(groups)
  {
    if IsGrouped(groups) {
      GroupedPointsSpec(groups, props, m);
    } else {
      FlatPointsOfAllEntries(groups, props, xProp);
      EntryPointsSpec(AllEntries(groups), props, xProp);
    }
  }
}

=== FILE: wiki_link.dfy ===
/**
 * The label resolver: a group key written as a wiki link, `[[path]]` or
 * `[[path|display]]`, becomes a display name plus a navigation path; any other
 * text is its own display name and has no path.
 *
 * The recogniser accepts exactly this: the text opens with `[[` and closes with
 * `]]`, the path is one or more characters other than `]` and `|`, and the
 * optional alias after the first `|` is one or more characters other than `]`.
 */
module WikiLink {
  import opened Wrappers

  /** What `parseWikiLink` returns: `{ displayName, path }`. */
  datatype Label = Label(displayName: string, path: Option<string>)

  /** A path the regular expression's first group can capture. */
  predicate ValidPath(p: string) {
    |p| > 0 && ']' !in p && '|' !in p
  }

  /** An alias the regular expression's optional second group can capture. */
  predicate ValidAlias(d: Option<string>) {
    d.Some? ==> |d.value| > 0 && ']' !in d.value
  }

  /** The text of a wiki link with path `p` and optional alias `d`. */
  function Render(p: string, d: Option<string>): string {
    "[[" + p + (if d.Some? then "|" + d.value else "") + "]]"
  }

  /** Index of the first `|` in `s`, or `|s|` when there is none. */
  function FirstBar(s: string): (k: nat)
    ensures k <= |s|
    ensures '|' !in s[..k]
    ensures k < |s| ==> s[k] == '|'
  {
    if s == [] then 0
    else if s[0] == '|' then 0
    else assert s[..1 + FirstBar(s[1..])] == [s[0]] + s[1..][..FirstBar(s[1..])]; 1 + FirstBar(s[1..])
  }

  /**
   * The regular-expression match: the captured path and optional alias, or None
   * when the text is not a wiki link. A match always renders back to the text.
   */
  function MatchWikiLink(text: string): (m: Option<(string, Option<string>)>)
    ensures m.Some? ==> ValidPath(m.value.0) && ValidAlias(m.value.1) && Render(m.value.0, m.value.1) == text
  {
    if |text| >= 4 && text[..2] == "[[" && text[|text| - 2..] == "]]" then
      var inner := text[2..|text| - 2];
      assert text == "[[" + inner + "]]";
      if ']' in inner then None
      else
        var k := FirstBar(inner);
        if k == 0 then None
        else if k == |inner| then Some((inner, None))
        else if k + 1 == |inner| then None
        else
          assert inner == inner[..k] + "|" + inner[k + 1..];
          Some((inner[..k], Some(inner[k + 1..])))
    else None
  }

  /**
   * The text after the last `/` of `p` (the last piece of splitting at `/`); the whole of `p`
   * when it has no `/`, and empty when `p` ends with `/`.
   */
  function LastSegment(p: string): (r: string)
    ensures '/' !in r
    ensures |r| <= |p| && r == p[|p| - |r|..]
    ensures |r| < |p| ==> p[|p| - |r| - 1] == '/'
  {
    if p == [] then []
    else if p[|p| - 1] == '/' then []
    else LastSegment(p[..|p| - 1]) + [p[|p| - 1]]
  }

  /** `parseWikiLink`: alias if given, else the last path segment; plain text otherwise. */
  function ParseWikiLink(text: string): (r: Label)
    ensures r.path.Some? ==> ValidPath(r.path.value)
    ensures r.path.None? ==> r.displayName == text
  {
    match MatchWikiLink(text)
    case Some((p, Some(d))) => Label(d, Some(p))
    case Some((p, None)) => Label(LastSegment(p), Some(p))
    case None => Label(text, None)
  }

  /** Reading back a rendered link recovers exactly its path and alias. */
  lemma MatchRender(p: string, d: Option<string>)
    requires ValidPath(p) && ValidAlias(d)
    ensures MatchWikiLink(Render(p, d)) == Some((p, d))
  {
    var text := Render(p, d);
    var inner := p + (if d.Some? then "|" + d.value else "");
    assert text == "[[" + inner + "]]";
    assert text[2..|text| - 2] == inner;
    assert FirstBar(inner) == |p| by {
      FirstBarPrefix(p, if d.Some? then "|" + d.value else "");
    }
    if d.Some? {
      assert inner[..|p|] == p;
      assert inner[|p| + 1..] == d.value;
    }
  }

  /** A prefix without `|` is skipped by FirstBar. */
  lemma {:induction false} FirstBarPrefix(p: string, rest: string)
    requires '|' !in p
    requires rest != [] ==> rest[0] == '|'
    ensures FirstBar(p + rest) == |p|
  {
    if p != [] {
      assert (p + rest)[1..] == p[1..] + rest;
      FirstBarPrefix(p[1..], rest);
    }
  }

  /** `[[p|d]]` resolves to display `d` and path `p`. */
  lemma ParseAliased(p: string, d: string)
    requires ValidPath(p) && |d| > 0 && ']' !in d
    ensures ParseWikiLink(Render(p, Some(d))) == Label(d, Some(p))
  {
    MatchRender(p, Some(d));
  }

  /** `[[p]]` resolves to the last `/` segment of `p` and path `p`. */
  lemma ParseBare(p: string)
    requires ValidPath(p)
    ensures ParseWikiLink(Render(p, None)) == Label(LastSegment(p), Some(p))
  {
    MatchRender(p, None);
  }

  /**
   * Text that is not a wiki link of any valid path and alias comes back unchanged
   * with no path; and a text that yields a path is such a link.
   */
  lemma ParsePlain(text: string)
    ensures ParseWikiLink(text).path.None? <==>
            (forall p, d :: ValidPath(p) && ValidAlias(d) ==> Render(p, d) != text)
    ensures ParseWikiLink(text).path.None? ==> ParseWikiLink(text) == Label(text, None)
  {
    if ParseWikiLink(text).path.None? {
      forall p, d | ValidPath(p) && ValidAlias(d) ensures Render(p, d) != text {
        MatchRender(p, d);
      }
    }
  }
}

=== FILE: wrappers.dfy ===
/** Optional values: the model's stand-in for the source's `null`/`undefined`. */
module Wrappers {

  datatype Option<+T> = None | Some(value: T) {

    /** The value, or `default` when there is none (JavaScript's `x ?? default`). */
    function GetOr(default: T): T {
      match this
      case Some(v) => v
      case None => default
    }
  }
}
